=== FILE: README.md ===
# ChatApp client core, modelled in Dafny

ChatApp is a React chat client on Firebase. This project models its core in Dafny:

- **Backend helpers.**
  - Creating the user document on first sign-in, and the online/last-seen update.
  - The display-name prefix search.
  - Creating a chat.
  - Writing a message and refreshing the chat's summary.
  - The attachment check that runs before an upload.
- **Conversation list (sidebar).**
  - The "5m ago" recency labels.
  - The case-insensitive filter.
  - The profile cache and the user search.
  - Starting a chat with a found user.
- **Conversation pane and message list.**
  - The live message subscriptions: one listener at a time.
  - The day grouping behind the date dividers.
  - The avatar rules.
  - The send paths.
  - Deleting a message.
- **Composer.**
  - The typing notifications with their single pending timer.
  - The one selected file.
  - The upload-then-send handler.
- **Presentation logic.**
  - The presence line of the top bar and of the header.
  - The avatar initials and colours.
  - The file-extension badge.
  - The message action dropdowns.
  - The delivery marks.

Most Dafny modules stand for one source file. The exceptions:

- `Store` (the helpers of `src/utils/firebaseConfig.js`) also holds the message-level pieces the components apply to stored documents: the removal by id behind the list's `deleteDoc`, and the pane's `chatId`/`deleted` filter.
- `Timeline` holds the snapshot stamping and the day grouping. `MessageList.jsx` and `ChatInterface.jsx` both carry these.
- `MessageActions` holds the action dispatch and the delivery marks. `MessageBubble.jsx` and `MessageItem.jsx` both carry these.

Three modules model no source file of their own:

- `Wrappers` holds `Option` and `Result`.
- `Text` holds the JavaScript string operations the code relies on. These are `trim`, ASCII case mapping, `includes`, `split`/`join` on one character, decimal rendering and string comparison.
- `Presence` holds the millisecond arithmetic for "minutes/hours/days ago".

Code that changes state step by step is imperative Dafny:

- The Firestore collections are one class, `Store.Firestore`.
- Each React component's state is a class: `ChatView`, `ListView`, `Composer`, `SidebarView`, `ActionMenu` and `NavbarMenu`.
- The snapshot loop, the day-grouping loop and the participant loops are methods with invariants.

Each of these methods is proved against a specification function or a stated property. For example:

- `GroupMessagesByDate` computes exactly the reference grouping `Runs`.
- That grouping is the only partition of the list into runs of one calendar day.
- The pane never has two live listeners.
- Every name in the prefix range `[term, term + '\uF8FF']` starts with the term. A name that starts with the term is in the range exactly when what follows is empty, begins below U+F8FF, or is U+F8FF alone. So the search misses names that go on with a character above U+F8FF (an emoji, say).
- The presence line of the header equals that of the top bar.

Where the code and the intended design differ, the model follows the code:

- A message is deleted outright (`deleteDoc`), not flagged as deleted.
- `createChat` never looks for an existing chat of the same pair. Only the sidebar checks its own list first.
- Messages carry no sequence number. Their order is the backend's timestamp order.

Several behaviours of the code are modelled as written and exhibited by lemmas:

- The composer reads a `fileUrl` key that the upload result does not have, so its messages never carry an attachment (`MessageInput.ComposerNeverAttaches`).
- The pane passes the whole upload record as the file reference (`ChatInterface.PlanSend`).
- The pane's root-collection query can match no message that `sendMessage` writes (`ChatInterface.ViewQueryMissesSentMessages`).
- The bubble reads `fileUrl`, which no stored message has (`MessageBubble.StoredMessagesHaveNoBubbleLink`).
- A chat started with an uncached user is handed over as 'User' (`Sidebar.NewChatSelectedWithStaleCache`).
- The sidebar's snapshot callback keeps consulting the profile cache of the render that started it (`Sidebar.SidebarView.OnChatsSnapshot`).

## Model

| member | source | states |
|---|---|---|
| Presence.MinutesToHours | src/components/layout/Navbar.jsx:33-40 | flooring minutes to hours equals flooring the millisecond difference to hours, for every sign of the difference |
| Presence.HoursToDays | src/components/layout/Navbar.jsx:40-44 | flooring hours to days equals flooring the millisecond difference to days |
| Store.NewUserDoc | src/utils/firebaseConfig.js:45-59 | the first-sign-in document: display name from the account, else the full name, else 'User' (never empty); bio and phone from the extra fields when given, even empty, else the default bio and null; online, with last-seen and creation at the write time; the account's picture exactly when it is non-empty, else null |
| Store.Firestore.CreateUserDocument | src/utils/firebaseConfig.js:38-67 | nothing without a user; an existing document is left untouched; otherwise exactly the new document is added; the reference is the user's id |
| Store.Firestore.UpdateUserStatus | src/utils/firebaseConfig.js:69-81 | no effect for a missing id or a missing document (the error is swallowed); otherwise only the online flag and last-seen of that user change |
| Store.RangeMatches | src/utils/firebaseConfig.js:88-91 | exactly the users whose display name lies between the term and the term followed by U+F8FF |
| Store.RangeMatchesIsFilter | src/utils/firebaseConfig.js:88-91 | the range matches are the index filtered by the range condition, so they keep the index's order |
| Store.SearchUsers | src/utils/firebaseConfig.js:83-104 | nothing for a term shorter than two characters; otherwise a prefix of the range matches in index order, holding every match when there are at most ten and exactly ten when there are more |
| Store.InRangeStartsWith | src/utils/firebaseConfig.js:90-91 | every name inside the range starts with the term |
| Store.InPrefixRangeIff | src/utils/firebaseConfig.js:90-91 | a name is in the range if and only if it starts with the term and what follows is empty, begins below U+F8FF, or is U+F8FF alone |
| Store.CheckUpload | src/utils/firebaseConfig.js:291-298 | missing chat id, file or sender is refused first; a type on neither allow-list is unsupported; an accepted file is within the ceiling of its kind; success says whether it is an image |
| Store.UploadChatFile | src/utils/firebaseConfig.js:290-313 | a refusal of the checks is returned unchanged; success needs the checks and the transfer; the record carries the URL, the size, the kind 'image'/'file' and the sanitized name (or sanitized 'image'/'file') |
| Store.RejectionPrecedesTransfer | src/utils/firebaseConfig.js:291-304 | a refused file gets the same refusal whatever the transfer would do, and never a transfer failure |
| Store.CeilingIsInclusive | src/utils/firebaseConfig.js:297-298 | a file of exactly the ceiling passes and one byte more is refused as too large with that kind's megabytes |
| Store.BuildMessage | src/utils/firebaseConfig.js:132-147 | the stored message: status 'sent', empty content becomes null, the three file fields present exactly when the file reference is truthy, with the sanitized name and a zero size dropped; it never has `fileUrl`, `chatId`, `deleted` or `replyTo` |
| Store.Summary | src/utils/firebaseConfig.js:153-156 | the chat summary by type: the text (or empty), the camera label for images, else the stored file name or the clip label |
| Store.SummaryDescribesStoredMessage | src/utils/firebaseConfig.js:142-156 | the summary written after a send is the summary of the message that was stored |
| Store.SummaryPlaceholders | src/utils/firebaseConfig.js:154-156 | a text message without content summarises as empty; a file message without a reference summarises as the clip label |
| Store.AfterSend | src/utils/firebaseConfig.js:151-158 | the chats after the summary update: the sent chat, when its document exists, gets the summary of the message and the write time, keeping its participants and creation time; every other chat and the set of chats stay |
| Store.Firestore.CreateChat | src/utils/firebaseConfig.js:107-121 | always adds exactly one new chat with the given participants and no summary; it never deduplicates |
| Store.Firestore.SendMessage | src/utils/firebaseConfig.js:123-159 | missing ids are refused before any write; otherwise the message is appended to the chat's subcollection; then the summary and time are updated when the chat document exists, else the call fails after the message was written |
| Store.WithoutId | src/components/chat/MessageList.jsx:64 | a message is in the result exactly when it was in the list and has another id |
| Store.WithoutIdKeepsOrder | src/components/chat/MessageList.jsx:64 | the remaining messages keep their order |
| Store.WithoutIdConcat | src/components/chat/MessageList.jsx:64 | removal on a list cut in two is the removal from each part, so each message is dropped exactly when its own id matches and none is merged or reordered |
| Store.WithoutIdKeepsDistinct | src/components/chat/MessageList.jsx:64 | removing by id keeps message ids distinct |
| Store.SentMessageMissesViewQuery | src/components/chat/ChatInterface.jsx:57-61 | no message written by `sendMessage` satisfies the pane's `chatId`/`deleted` filter |
| Store.MatchesViewQuery | src/components/chat/ChatInterface.jsx:57-61 | a document matches the pane's query when its `chatId` is the chat's id and its `deleted` flag is false |
| Store.Firestore.DeleteMessage | src/components/chat/MessageList.jsx:64 | the message is removed from the chat's subcollection outright; no message with that id remains; nothing else changes |
| Timeline.Stamped | src/components/chat/MessageList.jsx:30-35 | a message without a timestamp gets the current time; one with a timestamp is unchanged |
| Timeline.DayKey | src/components/chat/MessageList.jsx:115 | the day label of a message is the browser's date string of its timestamp, or 'Invalid Date' without one |
| Timeline.CollectSnapshot | src/components/chat/MessageList.jsx:25-38 | the loop keeps every document in snapshot order, each stamped |
| Timeline.RunsIsDayPartition | src/components/chat/MessageList.jsx:109-133 | the reference grouping concatenates back to the messages, has no empty group, files each message under its own day, and neighbouring groups differ in day |
| Timeline.DayPartitionUnique | src/components/chat/MessageList.jsx:109-133 | any grouping with those four properties is the reference grouping |
| Timeline.GroupMessagesByDate | src/components/chat/ChatInterface.jsx:201-225 | the loop with its current date and current group returns the reference grouping, hence a day partition with no more groups than messages |
| ChatInterface.TransformMessageData | src/components/chat/ChatInterface.jsx:228-235 | status becomes 'read'; own messages carry the viewer's name and picture; others carry the other user's name when truthy, else 'User' (also without a profile), and the profile's picture |
| ChatInterface.ShowAvatar | src/components/chat/ChatInterface.jsx:291-294 | the avatar shows on a message exactly when no earlier message of the group starts a run of one sender that reaches it (the first message and every change of sender) |
| ChatInterface.AvatarHeadsEveryRun | src/components/chat/ChatInterface.jsx:291-294 | every message is preceded, within its sender's run, by a message that shows the avatar |
| ChatInterface.AvatarOncePerRun | src/components/chat/ChatInterface.jsx:293-294 | inside one sender's run only the first message shows the avatar |
| ChatInterface.SentContent | src/components/chat/ChatInterface.jsx:140 | the sent text is the content, else the file name, else 'File shared', and never empty |
| ChatInterface.AttachmentKind | src/components/chat/ChatInterface.jsx:129 | 'image' exactly when the MIME type starts with 'image/', else 'file' |
| ChatInterface.PlanSend | src/components/chat/ChatInterface.jsx:114-134 | without files the content and the given or default type; with files the first is uploaded and a failed upload sends nothing; on success the upload record is the reference, with the picked file's name and size and the prefix-derived kind |
| ChatInterface.PaneSendsAttachment | src/components/chat/ChatInterface.jsx:119-145 | every message the pane writes has content, and has an attachment exactly when a file was picked |
| ChatInterface.ViewQuery | src/components/chat/ChatInterface.jsx:56-62 | the query keeps exactly the documents of the chat flagged not deleted |
| ChatInterface.ViewQueryIsFilter | src/components/chat/ChatInterface.jsx:56-62 | the query result is the collection filtered by the chat id and the flag, in collection order |
| ChatInterface.ViewQueryMissesSentMessages | src/components/chat/ChatInterface.jsx:56-62 | over documents without a `chatId` field, which is all `sendMessage` writes, the query returns nothing |
| ChatInterface.ChatView.AtMostOneListener | src/components/chat/ChatInterface.jsx:64-69 | under the pane's invariant at most one listener is live |
| ChatInterface.ChatView.Subscribe | src/components/chat/ChatInterface.jsx:51-69 | without a conversation id nothing changes; otherwise the held listener is stopped before the new one starts, leaving exactly one live |
| ChatInterface.ChatView.Cleanup | src/components/chat/ChatInterface.jsx:93-97 | the held listener is stopped; the reference keeps pointing at it; the messages, reply and loading flag stay |
| ChatInterface.ChatView.OnSnapshot | src/components/chat/ChatInterface.jsx:69-86 | a snapshot reaching a live listener replaces the messages (stamped) and ends loading; any other changes nothing |
| ChatInterface.ChatView.HandleReply | src/components/chat/ChatInterface.jsx:158-160 | the message becomes the quoted reply; the messages, listeners and loading flag stay |
| ChatInterface.ChatView.HandleSendMessage | src/components/chat/ChatInterface.jsx:110-155 | nothing without both ids; a failed upload writes nothing; otherwise the planned message is appended and the chat's summary and time are refreshed when its document exists; the reply is cleared exactly when the write succeeded and kept otherwise; the messages, listeners and loading flag stay |
| MessageList.RowOf | src/components/chat/MessageList.jsx:209-225 | own rows are labelled 'You' and never show an avatar; others carry the conversation name; the avatar follows the list's rule |
| MessageList.ShowAvatar | src/components/chat/MessageList.jsx:211-214 | the avatar shows exactly on someone else's message that no later message of the group continues as one sender's run (the last message and every message before a change of sender) |
| MessageList.AvatarEndsEveryRun | src/components/chat/MessageList.jsx:211-214 | every message of another sender is followed, within its run, by the message that shows the avatar |
| MessageList.AvatarOncePerRun | src/components/chat/MessageList.jsx:211-214 | inside one run only the last message can show the avatar |
| MessageList.ListView.OnConversationChange | src/components/chat/MessageList.jsx:13-48 | the previous listener is stopped; no conversation empties the list; otherwise exactly one new listener is live and loading starts |
| MessageList.ListView.OnSnapshot | src/components/chat/MessageList.jsx:24-45 | a snapshot reaching the live listener replaces the list (stamped) and ends loading |
| MessageList.HandleDeleteMessage | src/components/chat/MessageList.jsx:60-69 | a declined confirmation changes nothing; a confirmed one removes the message outright, and leaves the messages as they were when the chat has none |
| MessageInput.PlanDraft | src/components/chat/MessageInput.jsx:70-101 | without a file a 'text' draft; with one, an upload failure ends the send with that error; on success the draft takes the uploaded name, size and kind; the text is the typed text, else the uploaded name, else 'File shared' |
| MessageInput.ComposerNeverAttaches | src/components/chat/MessageInput.jsx:86-106 | a composer message never has attachment fields, so a file message summarises with the generic label |
| MessageInput.DraftContentNonEmpty | src/components/chat/MessageInput.jsx:101 | the sent text is never empty and is the typed text whenever there is one |
| MessageInput.DropIndex | src/components/chat/MessageInput.jsx:141-143 | exactly the element at the index is dropped; an index out of range changes nothing |
| MessageInput.Composer.IsDisabled | src/components/chat/MessageInput.jsx:165 | the composer is disabled while an upload or a send is in progress |
| MessageInput.Composer.CanSend | src/components/chat/MessageInput.jsx:165-166 | sending is possible exactly when the text is not blank or a file is selected, and nothing is in progress |
| MessageInput.Composer.HandleTyping | src/components/chat/MessageInput.jsx:36-46 | the typing callback runs when supplied, and one stop timer is pending, two seconds ahead; text, file, flags, menu and progress stay |
| MessageInput.Composer.HandleMessageChange | src/components/chat/MessageInput.jsx:48-57 | the text is stored; non-blank text counts as typing; blank text reports stopping at once and leaves a pending timer; file, flags, menu and progress stay |
| MessageInput.Composer.TimerFires | src/components/chat/MessageInput.jsx:43-45 | the pending timer is gone and stopping is reported once; text, file, flags, menu and progress stay |
| MessageInput.Composer.HandleFileSelect | src/components/chat/MessageInput.jsx:133-139 | only the first chosen file is kept and the attachment menu closes; choosing none changes nothing; text, flags, progress and the pending timer stay |
| MessageInput.Composer.RemoveFile | src/components/chat/MessageInput.jsx:141-143 | the selection loses exactly the file at the index; text, flags, menu, progress and the pending timer stay |
| MessageInput.Composer.Deliver | src/components/chat/MessageInput.jsx:98-114 | the message (without attachment) is appended and the chat's summary and time are refreshed when its document exists; only a successful write clears the text, the file and the progress and reports stop-typing then cancel-reply; the menu and the pending timer always stay |
| MessageInput.Composer.SendPlanned | src/components/chat/MessageInput.jsx:66-123 | past the guards: a failed upload keeps text, file and store; otherwise the draft is written, the chat's summary refreshed when its document exists, and only a successful write clears the composer and reports stop-typing then cancel-reply; both busy flags end down; the progress stays on the failure paths and the menu and pending timer on every path |
| MessageInput.Composer.HandleSendMessage | src/components/chat/MessageInput.jsx:60-124 | nothing to send or a missing id changes nothing; a failed upload keeps text, file and store; otherwise the draft is written and the chat's summary refreshed when its document exists, and only a successful write clears the composer; both busy flags end down; the progress stays on the guard and failure paths and the menu and pending timer on every path |
| Navbar.ConversationStatus | src/components/layout/Navbar.jsx:25-50 | no conversation, online, offline without last-seen, 'recently' under five whole minutes (and for a future time), then 5-59 minutes, 1-23 hours, then days, each the floor of the elapsed time |
| Navbar.LabelText | src/components/layout/Navbar.jsx:29-49 | the text of each presence label: 'Active now', 'Active recently', 'Active <n>m/h/d ago', 'Offline', or empty without a conversation |
| Navbar.CountTextShape | src/components/layout/Navbar.jsx:38-45 | a counted label reads 'Active ', the digits, the unit letter and ' ago' |
| Navbar.LabelTextInjective | src/components/layout/Navbar.jsx:25-50 | different presence labels render to different text |
| Navbar.GetConversationStatus | src/components/layout/Navbar.jsx:25-50 | the rendered line: empty without a conversation, 'Active now' when online, 'Offline' without last-seen |
| Navbar.NavbarMenu.HandleLogout | src/components/layout/Navbar.jsx:15-22 | the user menu closes only when signing out succeeded |
| Header.GetStatusText | src/components/layout/Header.jsx:23-46 | online, offline, or an 'Active …' line for a known last-seen |
| Header.HeaderAgreesWithNavbar | src/components/layout/Header.jsx:23-46 | the header's own copy of the rules gives the same line as the top bar for every conversation and time |
| Header.HeaderView | src/components/layout/Header.jsx:12-20 | the title bar exactly when no conversation is open, otherwise the presence line |
| UserAvatar.Initial | src/components/user/UserAvatar.jsx:31 | at most one character per word |
| UserAvatar.GetInitials | src/components/user/UserAvatar.jsx:27-34 | '?' for a missing or empty name; at most two characters |
| UserAvatar.InitialsMatchScan | src/components/user/UserAvatar.jsx:29-33 | the initials are the upper-cased first character and the character after the first space, each only when it is not a space |
| UserAvatar.GetBackgroundColor | src/components/user/UserAvatar.jsx:37-55 | grey for a missing name, otherwise the palette entry at length mod 10, always one of the ten |
| UserAvatar.ColorDependsOnLengthOnly | src/components/user/UserAvatar.jsx:53 | names whose lengths agree mod 10 get the same colour |
| UserAvatar.StatusColor | src/components/user/UserAvatar.jsx:57-62 | the four known statuses have their colours and any other status gets the offline colour |
| UserAvatar.StatusDot | src/components/user/UserAvatar.jsx:109-123 | the dot is drawn exactly for a non-empty status, in that status's colour |
| Sidebar.LastMessageRecency | src/components/layout/Sidebar.jsx:206-222 | blank without a time; 'now' under a minute and for a future time; 1-59 minutes, 1-23 hours, 1-6 days as floors of the elapsed time; the date from seven days on |
| Sidebar.RecencyText | src/components/layout/Sidebar.jsx:207-221 | the text of each recency: empty, 'now', '<n>m ago', '<n>h ago', '<n>d ago', or the locale date |
| Sidebar.FormatLastMessageTime | src/components/layout/Sidebar.jsx:206-222 | empty without a time, 'now' under a minute, the locale date from a week on |
| Sidebar.OtherParticipant | src/components/layout/Sidebar.jsx:132 | the first participant other than the viewer, or none when all are the viewer |
| Sidebar.FilterConversations | src/components/layout/Sidebar.jsx:225-236 | a chat is kept exactly when the trimmed query is empty or the match holds |
| Sidebar.MatchesQuery | src/components/layout/Sidebar.jsx:229-235 | a chat matches when the lower-cased query occurs in the lower-cased name of its cached other participant or in its lower-cased last message |
| Sidebar.FilterKeepsOrder | src/components/layout/Sidebar.jsx:225 | filtering never reorders chats |
| Sidebar.BlankQueryKeepsAll | src/components/layout/Sidebar.jsx:226 | a query that trims to nothing shows the whole list |
| Sidebar.NonBlankQueryKeepsMatches | src/components/layout/Sidebar.jsx:228-235 | otherwise exactly the chats whose other user's name or last message contains the lower-cased untrimmed query |
| Sidebar.CollectOtherUserIds | src/components/layout/Sidebar.jsx:49-56 | the set of every participant of every chat except the viewer, each once |
| Sidebar.FetchMissing | src/components/layout/Sidebar.jsx:71-95 | exactly the ids absent from the consulted cache whose document exists, with those documents |
| Sidebar.SearchResults | src/components/layout/Sidebar.jsx:103-128 | nothing unless the trimmed query is longer than one character; otherwise the prefix search on the trimmed query without the viewer |
| Sidebar.WithoutUser | src/components/layout/Sidebar.jsx:113 | exactly the users other than the viewer |
| Sidebar.WithoutUserIsFilter | src/components/layout/Sidebar.jsx:113 | removing the viewer is a filter of the results, so their order is kept |
| Sidebar.SelectConversation | src/components/layout/Sidebar.jsx:131-150 | the handed-over record: the other user's name or 'User', the picture only when truthy, the presence, the last message when truthy, else 'No messages yet', and the formatted time |
| Sidebar.NewChatSelectedWithStaleCache | src/components/layout/Sidebar.jsx:169-183 | a chat started with an uncached user is handed over as 'User', while selecting it with the updated cache shows the user's name |
| Sidebar.ListedConversations | src/components/layout/Sidebar.jsx:322-326 | a chat is drawn exactly when its other participant is cached |
| Sidebar.ListedConversationsIsFilter | src/components/layout/Sidebar.jsx:322-326 | the drawn chats are the list filtered by a cached other participant, in list order |
| Sidebar.FindWith | src/components/layout/Sidebar.jsx:156-158 | the first listed chat that includes the user, or none when no chat does |
| Sidebar.SidebarView.StartListening | src/components/layout/Sidebar.jsx:18-29 | the snapshot callback captures the cache of the render that started the listener; the list, cache, selection, query, tab and results stay |
| Sidebar.SidebarView.OnChatsSnapshot | src/components/layout/Sidebar.jsx:29-58 | the list is replaced; the other participants missing from the captured cache are fetched and merged, the fetched entries winning; the captured cache, selection, query, tab and results stay |
| Sidebar.SidebarView.OnSearchTimer | src/components/layout/Sidebar.jsx:104-125 | the results become the search results of the current query; everything else stays |
| Sidebar.SidebarView.HandleStartNewChat | src/components/layout/Sidebar.jsx:153-193 | an existing chat with the user is selected and nothing is created; otherwise one chat of the viewer and the user is created, the user cached, the chat selected with the previous cache, the query cleared and the chats tab shown; the list, results and captured cache stay, and on the existing-chat path the cache, query and tab too |
| MessageActions.Dispatch | src/components/chat/MessageBubble.jsx:30-45 | reply, copy and delete reach their callback, with the message, its content or its id, exactly when that callback is supplied; nothing else is called |
| MessageActions.UnknownActionIsInert | src/components/chat/MessageBubble.jsx:42-43 | any other action calls nothing |
| MessageActions.ActionMenu.Toggle | src/components/chat/MessageItem.jsx:210-218 | the more button flips the dropdown |
| MessageActions.ActionMenu.Dismiss | src/components/chat/MessageItem.jsx:223-226 | a click outside closes the dropdown |
| MessageActions.ActionMenu.HandleAction | src/components/chat/MessageItem.jsx:44-59 | the dropdown closes whatever the action, and the dispatched callback, if any, is recorded |
| MessageActions.StatusMark | src/components/chat/MessageBubble.jsx:148-162 | a mark only on own messages: spinner, tick, double tick, highlighted double tick for sending, sent, delivered, read; none for other statuses |
| MessageActions.MarkTellsStatus | src/components/chat/MessageItem.jsx:191-205 | on own messages a visible mark determines the status |
| MessageBubble.ExtensionBadge | src/components/chat/MessageBubble.jsx:84 | 'FILE' without a name; the whole name upper-cased when it has no dot; otherwise the text after the last dot upper-cased, or 'FILE' when that is empty |
| MessageBubble.TrailingDotBadge | src/components/chat/MessageBubble.jsx:84 | a name ending in a dot gets 'FILE' |
| MessageBubble.BadgeIsNameSuffix | src/components/chat/MessageBubble.jsx:84 | the badge is 'FILE' or an upper-cased suffix of the name |
| MessageBubble.RenderBubble | src/components/chat/MessageBubble.jsx:48-104 | text shows the quoted reply and content; an image's source is `fileUrl` with a caption only for non-empty content; a file shows the badge and links `fileUrl`; other types show plain content |
| MessageBubble.StoredMessagesHaveNoBubbleLink | src/components/chat/MessageBubble.jsx:67 | every stored message renders its picture with no source and its file with no link |
| MessageBubble.SenderLabel | src/components/chat/MessageBubble.jsx:121-127 | the sender line appears exactly for someone else's message with an avatar, showing the name when truthy, else 'User' |
| MessageBubble.BubbleMenu | src/components/chat/MessageBubble.jsx:199-221 | copy and reply always, delete exactly on own messages, no download |
| MessageBubble.PaneMarksOwnMessagesRead | src/components/chat/ChatInterface.jsx:233 | in the pane every own message shows the read mark, whatever its stored status |
| MessageItem.FileData | src/components/chat/MessageItem.jsx:76 | the stored file reference when it is truthy |
| MessageItem.RenderItem | src/components/chat/MessageItem.jsx:71-155 | a picture only with stored data, saved as the file name or 'image.jpg'; a file titled by its name or 'File', its size only when non-zero, a link only with stored data; pictures and files carry the content as caption exactly when it is non-empty; every other type shows the content and the quoted reply with 'Someone' as the default sender |
| MessageItem.QuoteOnlyOnText | src/components/chat/MessageItem.jsx:134-150 | a reply quote is shown exactly on messages that are neither pictures nor files |
| MessageItem.ItemMenu | src/components/chat/MessageItem.jsx:230-271 | reply and copy always; a download exactly for a file or picture with stored data, named by the file name, else 'image.jpg' or 'file'; delete exactly on own messages |
| MessageItem.PictureDownloadNamesAgree | src/components/chat/MessageItem.jsx:87 | the dropdown and the picture's own button save a picture under the same name |
| MessageItem.StoredAttachmentsAreDownloadable | src/components/chat/MessageItem.jsx:247-250 | every file or picture message stored with a reference offers a download of that reference |

## Left out

- The Firebase SDK is represented by its effects on `Store.Firestore` only. Left out are network failures, permission errors, the index-missing alert, retries and the backend's ordering (`orderBy`). Snapshots arrive as parameters, in the order the backend would deliver them.
- Document ids allocated by `addDoc` come in as parameters that must be fresh. Server timestamps are a `now` parameter.
- The allow-lists, the size ceilings and `sanitizeFileName` are referenced but not defined in the helper file. They are an `UploadPolicy` parameter and a `sanitize` function parameter. The outcome of the storage transfer is a parameter as well.
- The storage path of an upload (`chat-files/<chat>/<time>_<name>`) is not modelled. Nothing reads it.
- The avatar upload to ImgBB, `fileToBase64`, `uploadFile` and the progress percentage are not modelled. They are network, browser I/O or floating point.
- `formatFileSize` uses logarithms and `toFixed`. Only whether a size is shown is modelled.
- Locale and time zone are left out:
  - the calendar day behind `toDateString` is a `day` function parameter;
  - `toLocaleDateString` is a `localeDate` parameter;
  - `formatTime` and `formatDateDivider` are not modelled.
- Timers are logical:
  - the typing timeout is one pending deadline;
  - the 500 ms search debounce is the `OnSearchTimer` step;
  - `setTimeout` scheduling itself is not modelled.
- Lower- and upper-casing cover ASCII letters only. String lengths count characters, not UTF-16 code units, so the avatar colour of a name outside the Basic Multilingual Plane may differ.
- Cache lookups with keys such as `undefined` or inherited object properties are not modelled. A missing other participant simply finds no profile.
- Timestamps are integers of milliseconds. Left out are a Firestore `Timestamp` reaching `new Date(...)` unconverted (the search results cached by `handleStartNewChat`), and the resulting `NaN` presence line.
- UserAvatar.GetInitials: the bound of two characters relies on case mapping one character to one; JavaScript upper-cases some characters to two (`'ß'` becomes `"SS"`), so for such names the source can show up to four characters.
- Store.NewUserDoc: the extra data carries only `fullName`, `bio` and `phone`. The source spreads the whole `additionalData` object last, so any other key it held (`displayName`, say) would override the document's own field; the only caller passes none of those.
- Sidebar.SelectConversation: does not carry the copied email, phone and bio fields, which nothing in the modelled core reads.
- The pane's `handleDeleteMessage` and `handleCopyMessage` are not modelled. The first only logs. The second writes to the clipboard.
- The list's reply handler, which only logs and scrolls, is not modelled. The pane's `fetchOtherUserData` is a backend read, and the pane receives its result as the `other` profile.
- `handleKeyPress` only calls the send handler. That handler's own guards are modelled in `MessageInput.Composer.HandleSendMessage`.
- Voice recording and the random emoji are not modelled.
- The sidebar's logout and the presence updates around sign-in are not modelled. Neither are `ProfileModal`, routing, `Loader` or `onAuthChange`.
- The list item's sender line and its per-sender profile subscription (`listenToUser`) are not modelled. They are presentation only, fed by a backend listener.
- Styling, scrolling, focus and the empty-state texts are not modelled.

=== FILE: chat_interface.dfy ===
/**
 * The conversation pane: its message listener (one live subscription at a time), the
 * send handler that uploads the first attached file and then writes the message, the
 * decoration of messages for the bubble component, and the avatar rule.
 */
module ChatInterface {

  import opened Wrappers
  import opened Text
  import opened Store
  import opened Timeline

  /** A message as the bubble component receives it: status forced to 'read', sender shown. */
  datatype BubbleMessage = BubbleMessage(message: Message, senderName: Option<string>,
                                         senderAvatar: Option<string>)

  /** The signed-in user as the pane sees it. */
  datatype Viewer = Viewer(uid: string, displayName: Option<string>, photoURL: Option<string>)

  /** The other participant's profile, once fetched. */
  datatype Profile = Profile(displayName: Option<string>, photoURL: Option<string>)

  /**
   * `transformMessageData`: the sender's name and picture are the viewer's own for the
   * viewer's messages and the other participant's otherwise, with 'User' when that name is
   * unknown; the status becomes 'read' whatever was stored.
   */
  function TransformMessageData(m: Message, viewer: Viewer, other: Option<Profile>): (r: BubbleMessage)
    ensures r.message == m.(status := "read")
    ensures m.senderId == viewer.uid ==>
              r.senderName == viewer.displayName && r.senderAvatar == viewer.photoURL
    ensures m.senderId != viewer.uid ==>
              && r.senderName.Some?
              && r.senderName.value != ""
              && (other.Some? && other.value.displayName.Some? && other.value.displayName.value != "" ==>
                    r.senderName == other.value.displayName)
              && (other.None? ==> r.senderName == Some("User") && r.senderAvatar.None?)
              && (other.Some? ==> r.senderAvatar == other.value.photoURL)
              && (other.Some? && !Truthy(other.value.displayName) ==> r.senderName == Some("User"))
  {
    var own := m.senderId == viewer.uid;
    var otherName := if other.Some? then other.value.displayName else None;
    BubbleMessage(
      m.(status := "read"),
      if own then viewer.displayName else Some(OrNull(otherName, "User")),
      if own then viewer.photoURL else if other.Some? then other.value.photoURL else None)
  }

  /**
   * `showAvatar` in this pane: at the first message of a group and wherever the sender
   * changes, that is, exactly where no earlier message of the group begins a run of one
   * sender that reaches this one.
   */
  predicate ShowAvatar(group: seq<Message>, i: nat)
    requires i < |group|
    ensures ShowAvatar(group, i) <==> !exists j :: 0 <= j < i && SenderRun(group, j, i)
  {
    if i > 0 && group[i - 1].senderId == group[i].senderId then
      assert SenderRun(group, i - 1, i);
      false
    else
      true
  }

  /**
   * Every message sits under an avatar of its own sender: walking back from it, the first
   * message that shows an avatar is reached before any message of another sender.
   */
  lemma {:induction false} AvatarHeadsEveryRun(group: seq<Message>, i: nat)
    requires i < |group|
    ensures exists j :: 0 <= j <= i && ShowAvatar(group, j) &&
              forall k :: j <= k <= i ==> group[k].senderId == group[i].senderId
  {
    if !ShowAvatar(group, i) {
      AvatarHeadsEveryRun(group, i - 1);
      var j :| 0 <= j <= i - 1 && ShowAvatar(group, j) &&
               forall k :: j <= k <= i - 1 ==> group[k].senderId == group[i - 1].senderId;
      assert forall k :: j <= k <= i ==> group[k].senderId == group[i].senderId;
    }
  }

  /** Between an avatar and the next message of the same run, no second avatar appears. */
  lemma AvatarOncePerRun(group: seq<Message>, i: nat, j: nat)
    requires i < j < |group|
    requires forall k :: i <= k <= j ==> group[k].senderId == group[i].senderId
    ensures forall k :: i < k <= j ==> !ShowAvatar(group, k)
  {
    forall k | i < k <= j ensures !ShowAvatar(group, k) {
      assert group[k - 1].senderId == group[i].senderId;
    }
  }

  /** The text a send writes: the typed content, else the file's name, else 'File shared'. */
  function SentContent(content: Option<string>, fileName: Option<string>): (r: string)
    ensures r != ""
    ensures content.Some? && content.value != "" ==> r == content.value
    ensures !(content.Some? && content.value != "") && fileName.Some? && fileName.value != "" ==>
              r == fileName.value
    ensures !Truthy(content) && !Truthy(fileName) ==> r == "File shared"
  {
    OrNull(content, OrNull(fileName, "File shared"))
  }

  /** The type this pane gives an attachment: decided by the MIME prefix alone. */
  function AttachmentKind(mime: string): (r: string)
    ensures r == "image" <==> StartsWith(mime, "image/")
    ensures r == "image" || r == "file"
  {
    if StartsWith(mime, "image/") then "image" else "file"
  }

  /** What the pane sends: the message fields passed to `sendMessage`, or nothing. */
  datatype Outgoing = Outgoing(content: string, kind: string, fileUrl: Option<FileRef>,
                               fileName: Option<string>, fileSize: Option<nat>)

  /**
   * The part of `handleSendMessage` before the write: without files, the content as is and
   * the given type (the helper's default 'text' when none); with files, the first one is
   * uploaded (the progress callback stands in the sender slot, so it is always present) and
   * the whole upload record is passed on as the file reference. A failed upload sends nothing.
   */
  function PlanSend(convId: string, content: Option<string>, kind: Option<string>,
                    files: seq<FileInfo>, policy: UploadPolicy, sanitize: string -> string,
                    transfer: Option<string>): (r: Option<Outgoing>)
    ensures files == [] ==> r == Some(Outgoing(SentContent(content, None), kind.GetOr("text"), None, None, None))
    ensures files != [] ==>
              (r.Some? <==> UploadChatFile(convId, Some(files[0]), true, policy, sanitize, transfer).Ok?)
    ensures files != [] && r.Some? ==>
              && r.value.fileUrl == Some(Record(UploadChatFile(convId, Some(files[0]), true, policy, sanitize, transfer).value))
              && r.value.fileName == Some(files[0].name)
              && r.value.fileSize == Some(files[0].size)
              && r.value.kind == AttachmentKind(files[0].mime)
              && r.value.content == SentContent(content, Some(files[0].name))
  {
    if files == [] then
      Some(Outgoing(SentContent(content, None), kind.GetOr("text"), None, None, None))
    else
      var file := files[0];
      match UploadChatFile(convId, Some(file), true, policy, sanitize, transfer)
      case Err(_) => None
      case Ok(record) =>
        Some(Outgoing(SentContent(content, Some(file.name)), AttachmentKind(file.mime),
                      Some(Record(record)), Some(file.name), Some(file.size)))
  }

  /** Every message this pane sends carries an attachment when a file was picked, and text always. */
  lemma PaneSendsAttachment(convId: string, content: Option<string>, kind: Option<string>,
                            files: seq<FileInfo>, policy: UploadPolicy, sanitize: string -> string,
                            transfer: Option<string>, id: string, senderId: string, now: int)
    requires PlanSend(convId, content, kind, files, policy, sanitize, transfer).Some?
    ensures var o := PlanSend(convId, content, kind, files, policy, sanitize, transfer).value;
            var m := BuildMessage(id, senderId, Some(o.content), o.kind, o.fileUrl, o.fileName,
                                  o.fileSize, sanitize, now);
            && m.content.Some?
            && (m.attachment.Some? <==> files != [])
  {
  }

  /**
   * The pane's query on the top-level `messages` collection: the documents of this chat not
   * flagged deleted, in collection order (the ascending timestamp order is the backend's).
   */
  function ViewQuery(root: seq<Message>, chatId: string): (r: seq<Message>)
    ensures forall m :: m in r <==> m in root && MatchesViewQuery(m, chatId)
    ensures |r| <= |root|
  {
    if root == [] then []
    else
      var rest := ViewQuery(root[1..], chatId);
      assert forall m :: m in root <==> m == root[0] || m in root[1..];
      if MatchesViewQuery(root[0], chatId) then [root[0]] + rest else rest
  }

  /** The query is the collection filtered by the chat id and the flag, in collection order. */
  lemma {:induction false} ViewQueryIsFilter(root: seq<Message>, chatId: string)
    ensures ViewQuery(root, chatId) == Filter(root, m => MatchesViewQuery(m, chatId))
    ensures SubsequenceOf(ViewQuery(root, chatId), root)
  {
    if root != [] {
      ViewQueryIsFilter(root[1..], chatId);
    }
    FilterIsSubsequence(root, m => MatchesViewQuery(m, chatId));
  }

  /** Over documents written by `sendMessage`, which carry no `chatId` field, the query finds nothing. */
  lemma {:induction false} ViewQueryMissesSentMessages(root: seq<Message>, chatId: string)
    requires forall i :: 0 <= i < |root| ==> root[i].chatId.None?
    ensures ViewQuery(root, chatId) == []
  {
    if root != [] {
      ViewQueryMissesSentMessages(root[1..], chatId);
    }
  }

  /** The pane's state: its message list, the quoted reply, and its listener bookkeeping. */
  class ChatView {
    var messages: seq<Message>
    var replyTo: Option<Message>
    var isLoading: bool
    /** `unsubscribeRef.current`: the handle of the last listener started. */
    var listener: Option<nat>
    /** The listeners the backend still delivers snapshots to. */
    var active: set<nat>
    var nextHandle: nat

    /** Only the listener the ref holds can be live. */
    ghost predicate Valid()
      reads this
    {
      && (forall h :: h in active ==> listener == Some(h))
      && (listener.Some? ==> listener.value < nextHandle)
    }

    constructor ()
      ensures Valid()
      ensures messages == [] && replyTo.None? && !isLoading && listener.None? && active == {}
    {
      messages, replyTo, isLoading := [], None, false;
      listener, active, nextHandle := None, {}, 0;
    }

    /** At most one listener is ever live. */
    lemma AtMostOneListener()
      requires Valid()
      ensures |active| <= 1
    {
      if active != {} {
        var h :| h in active;
        assert active == {h};
      }
    }

    /**
     * The listening effect: with no conversation id nothing happens; otherwise the listener
     * the ref holds is stopped before a new one is started and stored.
     */
    method Subscribe(convId: Option<string>)
      requires Valid()
      modifies this
      ensures Valid()
      ensures convId.None? || convId.value == "" ==>
                active == old(active) && listener == old(listener) && isLoading == old(isLoading)
      ensures convId.Some? && convId.value != "" ==>
                listener == Some(old(nextHandle)) && active == {old(nextHandle)} && isLoading
      ensures messages == old(messages) && replyTo == old(replyTo)
    {
      if convId.None? || convId.value == "" {
        return;
      }
      isLoading := true;
      if listener.Some? {
        active := active - {listener.value};
      }
      assert active == {};
      listener := Some(nextHandle);
      active := {nextHandle};
      nextHandle := nextHandle + 1;
    }

    /** The effect's cleanup: stops the listener the ref holds, but leaves the ref set. */
    method Cleanup()
      requires Valid()
      modifies this
      ensures Valid()
      ensures active == {}
      ensures listener == old(listener) && messages == old(messages) && replyTo == old(replyTo)
      ensures isLoading == old(isLoading) && nextHandle == old(nextHandle)
    {
      if listener.Some? {
        active := active - {listener.value};
      }
    }

    /** A snapshot delivered to a live listener replaces the list; others are never delivered. */
    method OnSnapshot(handle: nat, docs: seq<Message>, now: int)
      requires Valid()
      modifies this
      ensures Valid()
      ensures handle in old(active) ==>
                |messages| == |docs| && !isLoading &&
                forall i :: 0 <= i < |docs| ==> messages[i] == Stamped(docs[i], now)
      ensures handle !in old(active) ==> messages == old(messages) && isLoading == old(isLoading)
      ensures listener == old(listener) && active == old(active) && replyTo == old(replyTo)
    {
      if handle in active {
        messages := CollectSnapshot(docs, now);
        isLoading := false;
      }
    }

    /** `handleReply`: the message becomes the quoted reply. */
    method HandleReply(m: Message)
      requires Valid()
      modifies this
      ensures Valid()
      ensures replyTo == Some(m)
      ensures messages == old(messages) && listener == old(listener) && active == old(active)
      ensures isLoading == old(isLoading) && nextHandle == old(nextHandle)
    {
      replyTo := Some(m);
    }

    /**
     * `handleSendMessage`: nothing without a conversation id and a user id; otherwise the
     * planned message is written with `sendMessage`, and the quoted reply is dropped once the
     * write succeeded. A failed upload or write leaves the reply in place.
     */
    method HandleSendMessage(store: Firestore, convId: Option<string>, uid: Option<string>,
                             content: Option<string>, kind: Option<string>, files: seq<FileInfo>,
                             policy: UploadPolicy, sanitize: string -> string,
                             transfer: Option<string>, now: int, newId: string)
      requires Valid() && store.Valid()
      requires convId.Some? && convId.value != "" ==> store.FreshMessageId(convId.value, newId)
      modifies this, store
      ensures Valid() && store.Valid()
      ensures convId.None? || convId.value == "" || uid.None? || uid.value == "" ==>
                store.chatMessages == old(store.chatMessages) && store.chats == old(store.chats) &&
                replyTo == old(replyTo)
      ensures convId.Some? && convId.value != "" && uid.Some? && uid.value != "" ==>
                var plan := PlanSend(convId.value, content, kind, files, policy, sanitize, transfer);
                && (plan.None? ==>
                      store.chatMessages == old(store.chatMessages) && store.chats == old(store.chats) &&
                      replyTo == old(replyTo))
                && (plan.Some? ==>
                      var o := plan.value;
                      var m := BuildMessage(newId, uid.value, Some(o.content), o.kind, o.fileUrl,
                                            o.fileName, o.fileSize, sanitize, now);
                      && store.chatMessages == old(store.chatMessages)[convId.value := old(store.MessagesOf(convId.value)) + [m]]
                      && store.chats == AfterSend(old(store.chats), convId.value, o.kind, Some(o.content), m, now)
                      && (convId.value in old(store.chats) ==> replyTo.None?)
                      && (convId.value !in old(store.chats) ==> replyTo == old(replyTo)))
      ensures store.users == old(store.users) && store.rootMessages == old(store.rootMessages)
      ensures messages == old(messages) && listener == old(listener) && active == old(active)
      ensures isLoading == old(isLoading) && nextHandle == old(nextHandle)
    {
      if convId.None? || convId.value == "" || uid.None? || uid.value == "" {
        return;
      }
      var plan := PlanSend(convId.value, content, kind, files, policy, sanitize, transfer);
      if plan.None? {
        return;
      }
      var o := plan.value;
      var r := store.SendMessage(convId.value, uid.value, Some(o.content), o.kind, o.fileUrl,
                                 o.fileName, o.fileSize, sanitize, now, newId);
      if r.Ok? {
        replyTo := None;
      }
    }
  }
}

=== FILE: header.dfy ===
/**
 * The conversation header: a plain title bar when no conversation is open, otherwise the
 * participant's presence line, computed by its own copy of the presence rules.
 */
module Header {

  import opened Wrappers
  import opened Text
  import opened Presence
  import Navbar

  const APP_TITLE: string := "ChatApp"

  /** `getStatusText`, written out as the header states it. */
  function GetStatusText(conv: PresenceInfo, now: int): (r: string)
    ensures conv.isOnline ==> r == "Active now"
    ensures !conv.isOnline && conv.lastSeen.None? ==> r == "Offline"
    ensures !conv.isOnline && conv.lastSeen.Some? ==> |r| > 7 && r[..7] == "Active "
  {
    if conv.isOnline then "Active now"
    else if conv.lastSeen.Some? then
      var diffInMinutes := MinutesSince(conv.lastSeen.value, now);
      if diffInMinutes < 5 then "Active recently"
      else if diffInMinutes < 60 then "Active " + NatToString(diffInMinutes) + "m ago"
      else
        var diffInHours := diffInMinutes / 60;
        if diffInHours < 24 then "Active " + NatToString(diffInHours) + "h ago"
        else "Active " + NatToString(diffInHours / 24) + "d ago"
    else "Offline"
  }

  /** For every open conversation the header and the top bar show the same presence line. */
  lemma HeaderAgreesWithNavbar(conv: PresenceInfo, now: int)
    ensures GetStatusText(conv, now) == Navbar.GetConversationStatus(Some(conv), now)
  {
    if !conv.isOnline && conv.lastSeen.Some? {
      var d := now - conv.lastSeen.value;
      MinutesToHours(d);
      HoursToDays(d);
    }
  }

  /** What the header shows. */
  datatype HeaderContent = TitleBar(title: string) | ConversationBar(status: string)

  /**
   * The header component: without a conversation only the title, and the presence line is
   * never computed; with one, its presence line.
   */
  function HeaderView(conv: Option<PresenceInfo>, now: int): (r: HeaderContent)
    ensures conv.None? <==> r == TitleBar(APP_TITLE)
    ensures conv.Some? ==> r.ConversationBar? &&
                           r.status == Navbar.GetConversationStatus(conv, now)
  {
    if conv.None? then TitleBar(APP_TITLE)
    else
      HeaderAgreesWithNavbar(conv.value, now);
      ConversationBar(GetStatusText(conv.value, now))
  }
}

=== FILE: message_actions.dfy ===
/**
 * What the two message renderings share word for word: the action dropdown that closes and
 * then hands the message to an optional callback, and the delivery mark on own messages.
 */
module MessageActions {

  import opened Wrappers
  import opened Store

  /** A callback the action menu invoked, with what it was given. */
  datatype Callback<M> =
    | OnReply(message: M)
    | OnCopy(content: Option<string>)
    | OnDelete(id: string)

  /**
   * The dispatch of `handleAction`: 'reply' hands over the message, 'copy' its content and
   * 'delete' its id, each only when that callback was supplied; any other action does nothing.
   */
  function Dispatch<M>(action: string, message: M, content: Option<string>, id: string,
                       hasOnReply: bool, hasOnCopy: bool, hasOnDelete: bool): (r: Option<Callback<M>>)
    ensures r == Some(OnReply(message)) <==> action == "reply" && hasOnReply
    ensures r == Some(OnCopy(content)) <==> action == "copy" && hasOnCopy
    ensures r == Some(OnDelete(id)) <==> action == "delete" && hasOnDelete
    ensures r.Some? ==> r == Some(OnReply(message)) || r == Some(OnCopy(content)) || r == Some(OnDelete(id))
  {
    if action == "reply" then (if hasOnReply then Some(OnReply(message)) else None)
    else if action == "copy" then (if hasOnCopy then Some(OnCopy(content)) else None)
    else if action == "delete" then (if hasOnDelete then Some(OnDelete(id)) else None)
    else None
  }

  /** An action outside reply, copy and delete never reaches a callback, whatever is supplied. */
  lemma UnknownActionIsInert<M>(action: string, message: M, content: Option<string>, id: string,
                                hasOnReply: bool, hasOnCopy: bool, hasOnDelete: bool)
    requires action != "reply" && action != "copy" && action != "delete"
    ensures Dispatch(action, message, content, id, hasOnReply, hasOnCopy, hasOnDelete).None?
  {
  }

  /** The dropdown of one message, with the callbacks its parent supplied. */
  class ActionMenu<M> {
    const hasOnReply: bool
    const hasOnCopy: bool
    const hasOnDelete: bool
    var showDropdown: bool
    /** The callbacks invoked so far, oldest first. */
    var invoked: seq<Callback<M>>

    constructor (hasOnReply: bool, hasOnCopy: bool, hasOnDelete: bool)
      ensures this.hasOnReply == hasOnReply && this.hasOnCopy == hasOnCopy
      ensures this.hasOnDelete == hasOnDelete
      ensures !showDropdown && invoked == []
    {
      this.hasOnReply, this.hasOnCopy, this.hasOnDelete := hasOnReply, hasOnCopy, hasOnDelete;
      showDropdown, invoked := false, [];
    }

    /** The 'more' button flips the dropdown. */
    method Toggle()
      modifies this
      ensures showDropdown == !old(showDropdown) && invoked == old(invoked)
    {
      showDropdown := !showDropdown;
    }

    /** A click outside the dropdown closes it. */
    method Dismiss()
      modifies this
      ensures !showDropdown && invoked == old(invoked)
    {
      showDropdown := false;
    }

    /** `handleAction`: the dropdown closes whatever the action, then the action is dispatched. */
    method HandleAction(action: string, message: M, content: Option<string>, id: string)
      modifies this
      ensures !showDropdown
      ensures var d := Dispatch(action, message, content, id, hasOnReply, hasOnCopy, hasOnDelete);
              invoked == old(invoked) + (if d.Some? then [d.value] else [])
    {
      showDropdown := false;
      var d := Dispatch(action, message, content, id, hasOnReply, hasOnCopy, hasOnDelete);
      if d.Some? {
        invoked := invoked + [d.value];
      }
    }
  }

  /** An entry of a message's dropdown. */
  datatype MenuEntry = CopyEntry | ReplyEntry | DeleteEntry | DownloadEntry(href: FileRef, name: string)

  /** The delivery mark next to a message's time. */
  datatype Mark = NoMark | Spinner | Check | DoubleCheck | HighlightedDoubleCheck

  /**
   * The mark: only on the viewer's own messages; 'sending' spins, 'sent' is one tick,
   * 'delivered' two, 'read' two highlighted; any other status shows nothing.
   */
  function StatusMark(isCurrentUser: bool, status: string): (r: Mark)
    ensures !isCurrentUser ==> r == NoMark
    ensures r == Spinner <==> isCurrentUser && status == "sending"
    ensures r == Check <==> isCurrentUser && status == "sent"
    ensures r == DoubleCheck <==> isCurrentUser && status == "delivered"
    ensures r == HighlightedDoubleCheck <==> isCurrentUser && status == "read"
  {
    if !isCurrentUser then NoMark
    else if status == "sending" then Spinner
    else if status == "sent" then Check
    else if status == "delivered" then DoubleCheck
    else if status == "read" then HighlightedDoubleCheck
    else NoMark
  }

  /** On own messages the four known statuses show four different marks, so the mark tells the status. */
  lemma MarkTellsStatus(s1: string, s2: string)
    requires StatusMark(true, s1) == StatusMark(true, s2) != NoMark
    ensures s1 == s2
  {
  }
}

=== FILE: message_bubble.dfy ===
/**
 * The chat pane's message bubble: the body chosen by the message type, the file-extension
 * badge, the sender line, and the dropdown entries.
 */
module MessageBubble {

  import opened Wrappers
  import opened Text
  import opened Store
  import opened ChatInterface
  import opened MessageActions

  /**
   * The extension badge of a file message: the text after the last '.' in upper case, the
   * whole name when it has no '.', and 'FILE' when there is no name or that text is empty.
   */
  function ExtensionBadge(fileName: Option<string>): (r: string)
    ensures r != ""
    ensures fileName.None? ==> r == "FILE"
    ensures fileName.Some? && '.' !in fileName.value ==>
              r == (if fileName.value == "" then "FILE" else Upper(fileName.value))
    ensures fileName.Some? && '.' in fileName.value ==>
              exists i :: LastSeparatorAt(fileName.value, '.', i) &&
                          r == (if i + 1 == |fileName.value| then "FILE" else Upper(fileName.value[i + 1..]))
  {
    if fileName.None? then "FILE"
    else
      var name := fileName.value;
      if '.' in name then
        LastPieceAfterSeparator(name, '.');
        Or(Upper(LastPiece(name, '.')), "FILE")
      else
        Or(Upper(LastPiece(name, '.')), "FILE")
  }

  /** A name ending in '.' has an empty extension, so the badge falls back to 'FILE'. */
  lemma TrailingDotBadge(name: string)
    requires name != [] && name[|name| - 1] == '.'
    ensures ExtensionBadge(Some(name)) == "FILE"
  {
    LastPieceAfterSeparator(name, '.');
    var i :| LastSeparatorAt(name, '.', i) && LastPiece(name, '.') == name[i + 1..];
    if i + 1 < |name| {
      assert name[i + 1..][|name| - i - 2] == '.';
    }
    assert LastPiece(name, '.') == [];
  }

  /** The badge is made of the name's own characters, upper-cased, or is 'FILE'. */
  lemma BadgeIsNameSuffix(name: string)
    ensures ExtensionBadge(Some(name)) == "FILE" ||
            exists k :: 0 <= k < |name| && ExtensionBadge(Some(name)) == Upper(name[k..])
  {
    if '.' !in name {
      if name != "" {
        assert name[0..] == name;
      }
    } else {
      LastPieceAfterSeparator(name, '.');
      var i :| LastSeparatorAt(name, '.', i) && LastPiece(name, '.') == name[i + 1..];
      if i + 1 < |name| {
        assert ExtensionBadge(Some(name)) == Upper(name[i + 1..]);
      }
    }
  }

  /** The body of a bubble, by message type. */
  datatype BubbleBody =
    | TextBody(quote: Option<ReplyQuote>, text: Option<string>)
    | ImageBody(src: Option<string>, caption: Option<string>)
    | FileBody(badge: string, name: Option<string>, href: Option<string>, downloadName: Option<string>)
    | PlainBody(text: Option<string>)

  /**
   * `renderMessageContent`: text shows the quoted reply when there is one; an image takes its
   * source from `fileUrl` and a caption only when there is content; a file shows the badge and
   * links `fileUrl`; any other type shows the plain content.
   */
  function RenderBubble(b: BubbleMessage): (r: BubbleBody)
    ensures b.message.kind == "text" <==> r.TextBody?
    ensures b.message.kind == "image" <==> r.ImageBody?
    ensures b.message.kind == "file" <==> r.FileBody?
    ensures r.TextBody? ==> r.quote == b.message.replyTo && r.text == b.message.content
    ensures r.PlainBody? ==> r.text == b.message.content
    ensures r.ImageBody? ==> r.src == b.message.fileUrl &&
                             (r.caption.Some? <==> Truthy(b.message.content)) &&
                             (r.caption.Some? ==> r.caption == b.message.content)
    ensures r.FileBody? ==> r.href == b.message.fileUrl && r.name == b.message.FileName() &&
                            r.downloadName == b.message.FileName() &&
                            r.badge == ExtensionBadge(b.message.FileName())
  {
    var m := b.message;
    if m.kind == "text" then TextBody(m.replyTo, m.content)
    else if m.kind == "image" then ImageBody(m.fileUrl, if Truthy(m.content) then m.content else None)
    else if m.kind == "file" then
      FileBody(ExtensionBadge(m.FileName()), m.FileName(), m.fileUrl, m.FileName())
    else PlainBody(m.content)
  }

  /**
   * The bubble reads the picture's address from `fileUrl`, which no stored message has: every
   * message `sendMessage` writes renders its image with no source and its file with no link.
   */
  lemma StoredMessagesHaveNoBubbleLink(id: string, senderId: string, content: Option<string>, kind: string,
                                       fileUrl: Option<FileRef>, fileName: Option<string>,
                                       fileSize: Option<nat>, sanitize: string -> string, now: int,
                                       senderName: Option<string>, senderAvatar: Option<string>)
    ensures var m := BuildMessage(id, senderId, content, kind, fileUrl, fileName, fileSize, sanitize, now);
            var r := RenderBubble(BubbleMessage(m, senderName, senderAvatar));
            (r.ImageBody? ==> r.src.None?) && (r.FileBody? ==> r.href.None?)
  {
  }

  /** The sender line above a bubble: only for someone else's message that shows an avatar. */
  function SenderLabel(b: BubbleMessage, isCurrentUser: bool, showAvatar: bool): (r: Option<string>)
    ensures r.Some? <==> !isCurrentUser && showAvatar
    ensures r.Some? ==> r.value != "" && (Truthy(b.senderName) ==> r == b.senderName)
    ensures r.Some? && !Truthy(b.senderName) ==> r == Some("User")
  {
    if !isCurrentUser && showAvatar then Some(OrNull(b.senderName, "User")) else None
  }

  /** The bubble's dropdown: copy and reply for every message, delete only for the viewer's own. */
  function BubbleMenu(isCurrentUser: bool): (r: seq<MenuEntry>)
    ensures |r| >= 2 && r[0] == CopyEntry && r[1] == ReplyEntry
    ensures DeleteEntry in r <==> isCurrentUser
    ensures forall e :: e in r ==> !e.DownloadEntry?
  {
    [CopyEntry, ReplyEntry] + (if isCurrentUser then [DeleteEntry] else [])
  }

  /**
   * The pane hands the bubble every message with its status set to 'read', so each of the
   * viewer's own messages shows the highlighted double tick whatever was stored.
   */
  lemma PaneMarksOwnMessagesRead(m: Message, viewer: Viewer, other: Option<Profile>)
    ensures StatusMark(true, TransformMessageData(m, viewer, other).message.status) == HighlightedDoubleCheck
  {
  }
}

=== FILE: message_input.dfy ===
/**
 * The composer: the text being typed, the one selected file, the sending/uploading flags,
 * the typing notifications with their single pending stop timer, and the send handler that
 * uploads the selected file and then writes the message.
 */
module MessageInput {

  import opened Wrappers
  import opened Text
  import opened Store

  /** How long after the last keystroke the stop-typing notification fires, in milliseconds. */
  const TYPING_IDLE_MS: int := 2000

  /** The parent callbacks the composer calls, in the order it calls them. */
  datatype Notice = Typing | StopTyping | CancelReply

  /** The arguments the composer passes to `sendMessage` after a successful upload or without one. */
  datatype Draft = Draft(content: string, kind: string, fileName: Option<string>, fileSize: Option<nat>)

  /**
   * The composer's send plan for a non-empty draft: with a selected file, its upload must
   * succeed, and the draft takes the uploaded name, size and kind; the file reference stays
   * unset because the composer reads a `fileUrl` key the upload result does not have.
   */
  function PlanDraft(trimmed: string, files: seq<FileInfo>, convId: string, policy: UploadPolicy,
                     sanitize: string -> string, transfer: Option<string>): (r: Result<Draft, UploadError>)
    ensures files == [] ==> r == Ok(Draft(Or(trimmed, "File shared"), "text", None, None))
    ensures files != [] ==>
              var up := UploadChatFile(convId, Some(files[0]), true, policy, sanitize, transfer);
              && (r.Ok? <==> up.Ok?)
              && (up.Err? ==> r == Err(up.error))
              && (up.Ok? ==> r.value == Draft(Or(trimmed, Or(up.value.fileName, "File shared")),
                                               up.value.kind, Some(up.value.fileName),
                                               Some(up.value.fileSize)))
  {
    if files == [] then Ok(Draft(Or(trimmed, "File shared"), "text", None, None))
    else
      match UploadChatFile(convId, Some(files[0]), true, policy, sanitize, transfer)
      case Err(e) => Err(e)
      case Ok(up) =>
        Ok(Draft(Or(trimmed, Or(up.fileName, "File shared")), up.kind, Some(up.fileName), Some(up.fileSize)))
  }

  /**
   * A message the composer writes never carries the attachment fields, so a file message
   * is summarised with the generic file label rather than its name.
   */
  lemma ComposerNeverAttaches(d: Draft, id: string, senderId: string, sanitize: string -> string, now: int)
    ensures var m := BuildMessage(id, senderId, Some(d.content), d.kind, None, d.fileName, d.fileSize, sanitize, now);
            && m.attachment.None?
            && (d.kind != "text" && d.kind != "image" ==> SummaryOf(m) == FILE_SUMMARY)
  {
  }

  /** The sent text is never empty: the typed text, else the uploaded name, else 'File shared'. */
  lemma DraftContentNonEmpty(trimmed: string, files: seq<FileInfo>, convId: string,
                             policy: UploadPolicy, sanitize: string -> string,
                             transfer: Option<string>)
    requires PlanDraft(trimmed, files, convId, policy, sanitize, transfer).Ok?
    ensures var d := PlanDraft(trimmed, files, convId, policy, sanitize, transfer).value;
            d.content != "" && (trimmed != "" ==> d.content == trimmed)
  {
    if files != [] {
      var up := UploadChatFile(convId, Some(files[0]), true, policy, sanitize, transfer);
      assert up.Ok?;
    }
  }

  /** `prev.filter((_, i) => i !== index)`. */
  function DropIndex(s: seq<FileInfo>, index: int): (r: seq<FileInfo>)
    ensures 0 <= index < |s| ==> r == s[..index] + s[index + 1..]
    ensures !(0 <= index < |s|) ==> r == s
    decreases |s|
  {
    if s == [] then []
    else
      var rest := DropIndex(s[1..], index - 1);
      if index == 0 then
        rest
      else
        assert 0 < index < |s| ==> s[..index] + s[index + 1..] == [s[0]] + (s[1..][..index - 1] + s[1..][index..]);
        assert s == [s[0]] + s[1..];
        [s[0]] + rest
  }

  /** The composer's state. The three `has…` fields say which optional callbacks the parent passed. */
  class Composer {
    var message: string
    var selectedFiles: seq<FileInfo>
    var isSending: bool
    var isUploading: bool
    var uploadProgress: nat
    var showAttachments: bool
    /** When the single pending stop-typing timer fires, if one is pending. */
    var pendingStop: Option<int>
    /** The callbacks called so far. */
    var notices: seq<Notice>
    const hasOnTyping: bool
    const hasOnStopTyping: bool
    const hasOnCancelReply: bool

    /** No more than one file is ever selected. */
    ghost predicate Valid()
      reads this
    {
      |selectedFiles| <= 1
    }

    constructor (hasOnTyping: bool, hasOnStopTyping: bool, hasOnCancelReply: bool)
      ensures Valid()
      ensures message == "" && selectedFiles == [] && !isSending && !isUploading
      ensures uploadProgress == 0 && !showAttachments && pendingStop.None? && notices == []
      ensures this.hasOnTyping == hasOnTyping && this.hasOnStopTyping == hasOnStopTyping
      ensures this.hasOnCancelReply == hasOnCancelReply
    {
      message, selectedFiles := "", [];
      isSending, isUploading, uploadProgress, showAttachments := false, false, 0, false;
      pendingStop, notices := None, [];
      this.hasOnTyping, this.hasOnStopTyping, this.hasOnCancelReply := hasOnTyping, hasOnStopTyping, hasOnCancelReply;
    }

    /** `isDisabled`. */
    function IsDisabled(): bool
      reads this
    {
      isUploading || isSending
    }

    /** `canSend`: something to send, and no send or upload in progress. */
    function CanSend(): (r: bool)
      reads this
      ensures r <==> (!AllSpace(message) || |selectedFiles| > 0) && !IsDisabled()
    {
      TrimEmptyIff(message);
      (Trim(message) != "" || |selectedFiles| > 0) && !IsDisabled()
    }

    /** `handleTyping`: tells the parent, and replaces any pending stop timer by a fresh one. */
    method HandleTyping(now: int)
      requires Valid()
      modifies this
      ensures Valid()
      ensures pendingStop == Some(now + TYPING_IDLE_MS)
      ensures notices == old(notices) + (if hasOnTyping then [Typing] else [])
      ensures message == old(message) && selectedFiles == old(selectedFiles)
      ensures isSending == old(isSending) && isUploading == old(isUploading)
      ensures showAttachments == old(showAttachments) && uploadProgress == old(uploadProgress)
    {
      if hasOnTyping {
        notices := notices + [Typing];
      }
      pendingStop := Some(now + TYPING_IDLE_MS);
    }

    /**
     * `handleMessageChange`: stores the text; text with something besides white space counts
     * as typing, blank text stops typing at once (a pending timer is left to fire).
     */
    method HandleMessageChange(value: string, now: int)
      requires Valid()
      modifies this
      ensures Valid()
      ensures message == value && selectedFiles == old(selectedFiles)
      ensures !AllSpace(value) ==>
                pendingStop == Some(now + TYPING_IDLE_MS) &&
                notices == old(notices) + (if hasOnTyping then [Typing] else [])
      ensures AllSpace(value) ==>
                pendingStop == old(pendingStop) &&
                notices == old(notices) + (if hasOnStopTyping then [StopTyping] else [])
      ensures isSending == old(isSending) && isUploading == old(isUploading)
      ensures showAttachments == old(showAttachments) && uploadProgress == old(uploadProgress)
    {
      message := value;
      TrimEmptyIff(value);
      if Trim(value) != "" {
        HandleTyping(now);
      } else if hasOnStopTyping {
        notices := notices + [StopTyping];
      }
    }

    /** The pending timer fires: it is gone, and the parent hears that typing stopped. */
    method TimerFires()
      requires Valid()
      modifies this
      ensures Valid()
      ensures pendingStop.None?
      ensures old(pendingStop).Some? && hasOnStopTyping ==> notices == old(notices) + [StopTyping]
      ensures old(pendingStop).None? || !hasOnStopTyping ==> notices == old(notices)
      ensures message == old(message) && selectedFiles == old(selectedFiles)
      ensures isSending == old(isSending) && isUploading == old(isUploading)
      ensures showAttachments == old(showAttachments) && uploadProgress == old(uploadProgress)
    {
      if pendingStop.Some? {
        pendingStop := None;
        if hasOnStopTyping {
          notices := notices + [StopTyping];
        }
      }
    }

    /** `handleFileSelect`: keeps only the first chosen file; choosing none changes nothing. */
    method HandleFileSelect(files: seq<FileInfo>)
      requires Valid()
      modifies this
      ensures Valid()
      ensures files != [] ==> selectedFiles == [files[0]] && !showAttachments
      ensures files == [] ==> selectedFiles == old(selectedFiles) && showAttachments == old(showAttachments)
      ensures message == old(message) && notices == old(notices)
      ensures isSending == old(isSending) && isUploading == old(isUploading)
      ensures uploadProgress == old(uploadProgress) && pendingStop == old(pendingStop)
    {
      if |files| > 0 {
        selectedFiles := [files[0]];
        showAttachments := false;
      }
    }

    /** `removeFile`: drops exactly the file at `index` and keeps the rest in order. */
    method RemoveFile(index: int)
      requires Valid()
      modifies this
      ensures Valid()
      ensures selectedFiles == DropIndex(old(selectedFiles), index)
      ensures message == old(message) && notices == old(notices)
      ensures isSending == old(isSending) && isUploading == old(isUploading)
      ensures showAttachments == old(showAttachments) && uploadProgress == old(uploadProgress)
      ensures pendingStop == old(pendingStop)
    {
      selectedFiles := DropIndex(selectedFiles, index);
    }

    /**
     * The write and what follows it: a successful `sendMessage` clears the text and the
     * file, resets the progress and calls the stop-typing and cancel-reply callbacks; a
     * failed one (the chat document is missing) leaves the composer as it was.
     */
    method Deliver(store: Firestore, convId: string, uid: string, d: Draft,
                   sanitize: string -> string, now: int, newId: string)
      requires Valid() && store.Valid()
      requires convId != "" && uid != "" && store.FreshMessageId(convId, newId)
      modifies this, store
      ensures Valid() && store.Valid()
      ensures var m := BuildMessage(newId, uid, Some(d.content), d.kind, None,
                                    d.fileName, d.fileSize, sanitize, now);
              store.chatMessages == old(store.chatMessages)[convId := old(store.MessagesOf(convId)) + [m]] &&
              store.chats == AfterSend(old(store.chats), convId, d.kind, Some(d.content), m, now)
      ensures convId in old(store.chats) ==>
                message == "" && selectedFiles == [] && uploadProgress == 0 &&
                notices == old(notices) + (if hasOnStopTyping then [StopTyping] else [])
                                        + (if hasOnCancelReply then [CancelReply] else [])
      ensures convId !in old(store.chats) ==>
                message == old(message) && selectedFiles == old(selectedFiles) && notices == old(notices) &&
                uploadProgress == old(uploadProgress)
      ensures showAttachments == old(showAttachments) && pendingStop == old(pendingStop)
      ensures isSending == old(isSending) && isUploading == old(isUploading)
      ensures store.users == old(store.users) && store.rootMessages == old(store.rootMessages)
    {
      var r := store.SendMessage(convId, uid, Some(d.content), d.kind, None,
                                 d.fileName, d.fileSize, sanitize, now, newId);
      if r.Ok? {
        message := "";
        selectedFiles := [];
        uploadProgress := 0;
        if hasOnStopTyping {
          notices := notices + [StopTyping];
        }
        if hasOnCancelReply {
          notices := notices + [CancelReply];
        }
      }
    }

    /**
     * The part of `handleSendMessage` past its guards: with both flags up the draft is
     * planned (a failed upload ends here, keeping the text and the file) and then written;
     * every path ends with both flags down.
     */
    method SendPlanned(store: Firestore, convId: string, uid: string, trimmed: string,
                       policy: UploadPolicy, sanitize: string -> string,
                       transfer: Option<string>, now: int, newId: string)
      requires Valid() && store.Valid()
      requires convId != "" && uid != "" && store.FreshMessageId(convId, newId)
      modifies this, store
      ensures Valid() && store.Valid()
      ensures !isSending && !isUploading
      ensures var plan := PlanDraft(trimmed, old(selectedFiles), convId, policy, sanitize, transfer);
              && (plan.Err? ==>
                    store.chatMessages == old(store.chatMessages) && store.chats == old(store.chats) &&
                    message == old(message) && selectedFiles == old(selectedFiles) &&
                    notices == old(notices) && uploadProgress == old(uploadProgress))
              && (plan.Ok? ==>
                    var d := plan.value;
                    var m := BuildMessage(newId, uid, Some(d.content), d.kind, None,
                                          d.fileName, d.fileSize, sanitize, now);
                    && store.chatMessages == old(store.chatMessages)[convId := old(store.MessagesOf(convId)) + [m]]
                    && store.chats == AfterSend(old(store.chats), convId, d.kind, Some(d.content), m, now)
                    && (convId in old(store.chats) ==>
                          message == "" && selectedFiles == [] && uploadProgress == 0 &&
                          notices == old(notices) + (if hasOnStopTyping then [StopTyping] else [])
                                                  + (if hasOnCancelReply then [CancelReply] else []))
                    && (convId !in old(store.chats) ==>
                          message == old(message) && selectedFiles == old(selectedFiles) &&
                          notices == old(notices) && uploadProgress == old(uploadProgress)))
      ensures showAttachments == old(showAttachments) && pendingStop == old(pendingStop)
      ensures store.users == old(store.users) && store.rootMessages == old(store.rootMessages)
    {
      isSending := true;
      isUploading := true;
      var plan := PlanDraft(trimmed, selectedFiles, convId, policy, sanitize, transfer);
      if plan.Err? {
        // the upload failed: the user is alerted and nothing is sent
        isSending := false;
        isUploading := false;
        return;
      }
      Deliver(store, convId, uid, plan.value, sanitize, now, newId);
      isSending := false;
      isUploading := false;
    }

    /**
     * `handleSendMessage`. Nothing happens with nothing to send or without a conversation
     * and a user. Otherwise the draft is planned (a failed upload ends here, keeping the text
     * and the file), the message is written, and only a successful write clears the text and
     * the file, resets the progress and tells the parent that typing stopped and the reply
     * is cancelled. Every path that got past the guards ends with both flags down.
     */
    method HandleSendMessage(store: Firestore, convId: Option<string>, uid: Option<string>,
                             policy: UploadPolicy, sanitize: string -> string,
                             transfer: Option<string>, now: int, newId: string)
      requires Valid() && store.Valid()
      requires convId.Some? && convId.value != "" ==> store.FreshMessageId(convId.value, newId)
      modifies this, store
      ensures Valid() && store.Valid()
      ensures (AllSpace(old(message)) && old(selectedFiles) == []) ||
              convId.None? || convId.value == "" || uid.None? || uid.value == "" ==>
                && store.chatMessages == old(store.chatMessages) && store.chats == old(store.chats)
                && message == old(message) && selectedFiles == old(selectedFiles)
                && notices == old(notices) && uploadProgress == old(uploadProgress)
                && isSending == old(isSending) && isUploading == old(isUploading)
      ensures !(AllSpace(old(message)) && old(selectedFiles) == []) &&
              convId.Some? && convId.value != "" && uid.Some? && uid.value != "" ==>
                var plan := PlanDraft(Trim(old(message)), old(selectedFiles), convId.value, policy, sanitize, transfer);
                && !isSending && !isUploading
                && (plan.Err? ==>
                      store.chatMessages == old(store.chatMessages) && store.chats == old(store.chats) &&
                      message == old(message) && selectedFiles == old(selectedFiles) &&
                      notices == old(notices) && uploadProgress == old(uploadProgress))
                && (plan.Ok? ==>
                      var d := plan.value;
                      var m := BuildMessage(newId, uid.value, Some(d.content), d.kind, None,
                                            d.fileName, d.fileSize, sanitize, now);
                      && store.chatMessages == old(store.chatMessages)[convId.value := old(store.MessagesOf(convId.value)) + [m]]
                      && store.chats == AfterSend(old(store.chats), convId.value, d.kind, Some(d.content), m, now)
                      && (convId.value in old(store.chats) ==>
                            message == "" && selectedFiles == [] && uploadProgress == 0 &&
                            notices == old(notices) + (if hasOnStopTyping then [StopTyping] else [])
                                                    + (if hasOnCancelReply then [CancelReply] else []))
                      && (convId.value !in old(store.chats) ==>
                            message == old(message) && selectedFiles == old(selectedFiles) &&
                            notices == old(notices) && uploadProgress == old(uploadProgress)))
      ensures showAttachments == old(showAttachments) && pendingStop == old(pendingStop)
      ensures store.users == old(store.users) && store.rootMessages == old(store.rootMessages)
    {
      var trimmed := Trim(message);
      TrimEmptyIff(message);
      if trimmed == "" && |selectedFiles| == 0 {
        return;
      }
      if convId.None? || convId.value == "" || uid.None? || uid.value == "" {
        return;
      }
      SendPlanned(store, convId.value, uid.value, trimmed, policy, sanitize, transfer, now, newId);
    }
  }
}

=== FILE: message_item.dfy ===
/**
 * The message list's row body: pictures and files read their address from the stored
 * `fileData`, every other type (text included) shows the content with the quoted reply, and
 * the dropdown offers a download for a file or picture that has an address.
 */
module MessageItem {

  import opened Wrappers
  import opened Text
  import opened Store
  import opened MessageActions

  /** The stored address of a message's attachment, when it is truthy. */
  function FileData(m: Message): (r: Option<FileRef>)
    ensures r.Some? <==> m.attachment.Some? && FileRefTruthy(Some(m.attachment.value.fileData))
    ensures r.Some? ==> r.value == m.attachment.value.fileData
  {
    if m.attachment.Some? && FileRefTruthy(Some(m.attachment.value.fileData))
    then Some(m.attachment.value.fileData) else None
  }

  /** A downloadable picture: its address and the name it is saved under. */
  datatype Picture = Picture(href: FileRef, downloadName: string)

  /** A file's link: the browser picks a name when `downloadName` is none or empty. */
  datatype FileLink = FileLink(href: FileRef, downloadName: Option<string>)

  /** The quoted reply above a text. */
  datatype Quote = Quote(senderName: string, content: Option<string>)

  /** The body of a row, by message type. */
  datatype ItemBody =
    | ImageItem(picture: Option<Picture>, caption: Option<string>)
    | FileItem(title: string, size: Option<nat>, link: Option<FileLink>, caption: Option<string>)
    | TextItem(quote: Option<Quote>, text: Option<string>)

  /**
   * `renderMessageContent`: a picture only with stored data, saved as the file name or
   * 'image.jpg'; a file titled by its name or 'File', its size only when non-zero, a link
   * only with stored data; any other type, text included, shows the content with the quoted
   * reply, whose sender defaults to 'Someone'. Captions appear only for non-empty content.
   */
  function RenderItem(m: Message): (r: ItemBody)
    ensures r.ImageItem? <==> m.kind == "image"
    ensures r.FileItem? <==> m.kind == "file"
    ensures r.ImageItem? ==>
              && (r.picture.Some? <==> FileData(m).Some?)
              && (r.picture.Some? ==> r.picture.value.href == FileData(m).value &&
                                      r.picture.value.downloadName == OrNull(m.FileName(), "image.jpg"))
              && (r.caption.Some? <==> Truthy(m.content))
              && (r.caption.Some? ==> r.caption == m.content)
    ensures r.FileItem? ==>
              && r.title != ""
              && (Truthy(m.FileName()) ==> r.title == m.FileName().value)
              && (!Truthy(m.FileName()) ==> r.title == "File")
              && (r.size.Some? <==> m.attachment.Some? && m.attachment.value.fileSize.Some? &&
                                    m.attachment.value.fileSize.value != 0)
              && (r.link.Some? <==> FileData(m).Some?)
              && (r.link.Some? ==> r.link.value == FileLink(FileData(m).value, m.FileName()))
              && (r.caption.Some? <==> Truthy(m.content))
              && (r.caption.Some? ==> r.caption == m.content)
    ensures r.TextItem? ==>
              && r.text == m.content
              && (r.quote.Some? <==> m.replyTo.Some?)
              && (r.quote.Some? ==> r.quote.value.senderName == OrNull(m.replyTo.value.senderName, "Someone") &&
                                    r.quote.value.content == m.replyTo.value.content)
  {
    var caption := if Truthy(m.content) then m.content else None;
    var data := FileData(m);
    if m.kind == "image" then
      ImageItem(if data.Some? then Some(Picture(data.value, OrNull(m.FileName(), "image.jpg"))) else None,
                caption)
    else if m.kind == "file" then
      var size := if m.attachment.Some? && m.attachment.value.fileSize.Some? &&
                     m.attachment.value.fileSize.value != 0
                  then m.attachment.value.fileSize else None;
      FileItem(OrNull(m.FileName(), "File"), size,
               if data.Some? then Some(FileLink(data.value, m.FileName())) else None, caption)
    else
      TextItem(if m.replyTo.Some?
               then Some(Quote(OrNull(m.replyTo.value.senderName, "Someone"), m.replyTo.value.content))
               else None,
               m.content)
  }

  /** A quoted reply is shown only on rows that are neither pictures nor files. */
  lemma QuoteOnlyOnText(m: Message)
    requires m.replyTo.Some?
    ensures m.kind != "image" && m.kind != "file" <==> RenderItem(m).TextItem? && RenderItem(m).quote.Some?
  {
  }

  /**
   * The row's dropdown: reply and copy always; a download for a file or picture with stored
   * data, named by the file name or else 'image.jpg' for a picture and 'file' otherwise;
   * delete only on the viewer's own messages.
   */
  function ItemMenu(m: Message, isCurrentUser: bool): (r: seq<MenuEntry>)
    ensures |r| >= 2 && r[0] == ReplyEntry && r[1] == CopyEntry
    ensures DeleteEntry in r <==> isCurrentUser
    ensures (exists e :: e in r && e.DownloadEntry?) <==>
              (m.kind == "file" || m.kind == "image") && FileData(m).Some?
    ensures forall e :: e in r && e.DownloadEntry? ==>
              e.href == FileData(m).value && e.name != "" &&
              (Truthy(m.FileName()) ==> e.name == m.FileName().value) &&
              (!Truthy(m.FileName()) ==> e.name == (if m.kind == "image" then "image.jpg" else "file"))
  {
    var download :=
      if (m.kind == "file" || m.kind == "image") && FileData(m).Some?
      then [DownloadEntry(FileData(m).value, OrNull(m.FileName(), if m.kind == "image" then "image.jpg" else "file"))]
      else [];
    var r := [ReplyEntry, CopyEntry] + download + (if isCurrentUser then [DeleteEntry] else []);
    assert download != [] ==> download[0] in r && r[2] == download[0];
    r
  }

  /** The dropdown and the picture's own button save a picture under the same name. */
  lemma PictureDownloadNamesAgree(m: Message, isCurrentUser: bool, e: MenuEntry)
    requires m.kind == "image" && e in ItemMenu(m, isCurrentUser) && e.DownloadEntry?
    ensures RenderItem(m).picture == Some(Picture(e.href, e.name))
  {
  }

  /**
   * Every attachment `sendMessage` stores with a file or picture message is offered for
   * download, at the address it was stored with.
   */
  lemma StoredAttachmentsAreDownloadable(id: string, senderId: string, content: Option<string>, kind: string,
                                         fileUrl: Option<FileRef>, fileName: Option<string>,
                                         fileSize: Option<nat>, sanitize: string -> string, now: int,
                                         isCurrentUser: bool)
    requires kind == "file" || kind == "image"
    requires FileRefTruthy(fileUrl)
    ensures var m := BuildMessage(id, senderId, content, kind, fileUrl, fileName, fileSize, sanitize, now);
            exists e :: e in ItemMenu(m, isCurrentUser) && e.DownloadEntry? && e.href == fileUrl.value
  {
    var m := BuildMessage(id, senderId, content, kind, fileUrl, fileName, fileSize, sanitize, now);
    assert FileData(m) == fileUrl;
    var e :| e in ItemMenu(m, isCurrentUser) && e.DownloadEntry?;
  }
}

=== FILE: message_list.dfy ===
/**
 * The message list of the chat room: it follows the chat's `messages` subcollection,
 * empties itself when no conversation is selected, labels and decorates each row, and
 * hard-deletes a message once the user confirms.
 */
module MessageList {

  import opened Wrappers
  import opened Store
  import opened Timeline

  /**
   * `showAvatar` in the list: never on the viewer's own messages; on someone else's, at the
   * last message of the group and wherever the next message has another sender.
   */
  predicate ShowAvatar(group: seq<Message>, i: nat, uid: string)
    requires i < |group|
    ensures ShowAvatar(group, i, uid) <==>
              group[i].senderId != uid && !exists k :: i < k < |group| && SenderRun(group, i, k)
  {
    if group[i].senderId == uid then false
    else if i < |group| - 1 && group[i + 1].senderId == group[i].senderId then
      assert SenderRun(group, i, i + 1);
      false
    else
      true
  }

  /** The per-row values the list hands to a message item. */
  datatype Row = Row(isCurrentUser: bool, showAvatar: bool, senderName: Option<string>)

  /**
   * One row: the viewer's own messages are labelled 'You' and never show an avatar; the
   * others carry the conversation's name.
   */
  function RowOf(group: seq<Message>, i: nat, uid: string, convName: Option<string>): (r: Row)
    requires i < |group|
    ensures r.isCurrentUser <==> group[i].senderId == uid
    ensures r.isCurrentUser ==> !r.showAvatar && r.senderName == Some("You")
    ensures !r.isCurrentUser ==> r.senderName == convName
    ensures r.showAvatar <==> ShowAvatar(group, i, uid)
  {
    var own := group[i].senderId == uid;
    Row(own, ShowAvatar(group, i, uid), if own then Some("You") else convName)
  }

  /**
   * Every message of another sender is followed, within its own sender's run, by a message
   * that shows the avatar: the avatar closes each run.
   */
  lemma {:induction false} AvatarEndsEveryRun(group: seq<Message>, i: nat, uid: string)
    requires i < |group|
    requires group[i].senderId != uid
    ensures exists j :: i <= j < |group| && ShowAvatar(group, j, uid) &&
              forall k :: i <= k <= j ==> group[k].senderId == group[i].senderId
    decreases |group| - i
  {
    if !ShowAvatar(group, i, uid) {
      AvatarEndsEveryRun(group, i + 1, uid);
      var j :| i + 1 <= j < |group| && ShowAvatar(group, j, uid) &&
               forall k :: i + 1 <= k <= j ==> group[k].senderId == group[i + 1].senderId;
      assert forall k :: i <= k <= j ==> group[k].senderId == group[i].senderId;
    }
  }

  /** Inside one sender's run only its last message can show the avatar. */
  lemma AvatarOncePerRun(group: seq<Message>, i: nat, j: nat, uid: string)
    requires i < j < |group|
    requires forall k :: i <= k <= j ==> group[k].senderId == group[i].senderId
    ensures forall k :: i <= k < j ==> !ShowAvatar(group, k, uid)
  {
    forall k | i <= k < j ensures !ShowAvatar(group, k, uid) {
      assert group[k + 1].senderId == group[i].senderId;
    }
  }

  /** The list's state: its messages and the subscription its effect registered. */
  class ListView {
    var messages: seq<Message>
    var isLoading: bool
    /** The listener whose cleanup the current effect registered, if it registered one. */
    var registered: Option<nat>
    /** The listeners the backend still delivers snapshots to. */
    var active: set<nat>
    var nextHandle: nat

    ghost predicate Valid()
      reads this
    {
      && (forall h :: h in active ==> registered == Some(h))
      && (registered.Some? ==> registered.value < nextHandle)
    }

    constructor ()
      ensures Valid()
      ensures messages == [] && !isLoading && registered.None? && active == {}
    {
      messages, isLoading := [], false;
      registered, active, nextHandle := None, {}, 0;
    }

    /**
     * A change of conversation: the previous effect's cleanup stops its listener, then the
     * new effect either empties the list (no conversation id) or starts one new listener.
     */
    method OnConversationChange(convId: Option<string>)
      requires Valid()
      modifies this
      ensures Valid()
      ensures convId.None? || convId.value == "" ==>
                messages == [] && active == {} && registered.None? && isLoading == old(isLoading)
      ensures convId.Some? && convId.value != "" ==>
                active == {old(nextHandle)} && registered == Some(old(nextHandle)) && isLoading &&
                messages == old(messages)
      ensures convId.None? || convId.value == "" ==> nextHandle == old(nextHandle)
    {
      if registered.Some? {
        active := active - {registered.value};
        registered := None;
      }
      assert active == {};
      if convId.None? || convId.value == "" {
        messages := [];
        return;
      }
      isLoading := true;
      registered := Some(nextHandle);
      active := {nextHandle};
      nextHandle := nextHandle + 1;
    }

    /** A snapshot delivered to the live listener replaces the list, stamping missing times. */
    method OnSnapshot(handle: nat, docs: seq<Message>, now: int)
      requires Valid()
      modifies this
      ensures Valid()
      ensures handle in old(active) ==>
                |messages| == |docs| && !isLoading &&
                forall i :: 0 <= i < |docs| ==> messages[i] == Stamped(docs[i], now)
      ensures handle !in old(active) ==> messages == old(messages) && isLoading == old(isLoading)
      ensures registered == old(registered) && active == old(active)
      ensures nextHandle == old(nextHandle)
    {
      if handle in active {
        messages := CollectSnapshot(docs, now);
        isLoading := false;
      }
    }
  }

  /**
   * `handleDeleteMessage`: nothing when the confirmation is declined; otherwise the message
   * document is removed from the chat's subcollection.
   */
  method HandleDeleteMessage(store: Firestore, convId: string, messageId: string, confirmed: bool)
    requires store.Valid()
    modifies store
    ensures store.Valid()
    ensures !confirmed ==> store.chatMessages == old(store.chatMessages)
    ensures confirmed && convId in old(store.chatMessages) ==>
              store.chatMessages == old(store.chatMessages)[convId := WithoutId(old(store.chatMessages)[convId], messageId)]
    ensures confirmed && convId !in old(store.chatMessages) ==> store.chatMessages == old(store.chatMessages)
    ensures confirmed ==> forall m :: m in store.MessagesOf(convId) ==> m.id != messageId
    ensures store.users == old(store.users) && store.chats == old(store.chats)
    ensures store.rootMessages == old(store.rootMessages)
  {
    if !confirmed {
      return;
    }
    store.DeleteMessage(convId, messageId);
  }
}

=== FILE: navbar.dfy ===
/**
 * The top bar of the chat room: the presence line under the other participant's name and
 * the user menu that closes once logging out has succeeded.
 */
module Navbar {

  import opened Wrappers
  import opened Text
  import opened Presence

  /** The presence line, before it is turned into text. */
  datatype StatusLabel =
    | NoStatus
    | ActiveNow
    | ActiveRecently
    | ActiveMinutes(minutes: nat)
    | ActiveHours(hours: nat)
    | ActiveDays(days: nat)
    | Offline

  /**
   * `getConversationStatus`, as a label: online wins whatever `lastSeen` holds; an offline
   * participant seen less than five whole minutes ago (or in the future) is 'recently'
   * active, then whole minutes up to 59, whole hours up to 23, then whole days.
   */
  function ConversationStatus(conv: Option<PresenceInfo>, now: int): (r: StatusLabel)
    ensures conv.None? <==> r.NoStatus?
    ensures r.ActiveNow? <==> conv.Some? && conv.value.isOnline
    ensures r.Offline? <==> conv.Some? && !conv.value.isOnline && conv.value.lastSeen.None?
    ensures r.ActiveRecently? <==>
              conv.Some? && !conv.value.isOnline && conv.value.lastSeen.Some? &&
              MinutesSince(conv.value.lastSeen.value, now) < 5
    ensures (conv.Some? && !conv.value.isOnline && conv.value.lastSeen.Some? &&
             conv.value.lastSeen.value > now) ==> r.ActiveRecently?
    ensures r.ActiveMinutes? ==>
              5 <= r.minutes <= 59 && r.minutes == MinutesSince(conv.value.lastSeen.value, now)
    ensures r.ActiveHours? ==>
              1 <= r.hours <= 23 && r.hours == (now - conv.value.lastSeen.value) / HOUR_MS
    ensures r.ActiveDays? ==>
              1 <= r.days && r.days == (now - conv.value.lastSeen.value) / DAY_MS
  {
    if conv.None? then NoStatus
    else if conv.value.isOnline then ActiveNow
    else if conv.value.lastSeen.Some? then
      var lastSeen := conv.value.lastSeen.value;
      var diffInMinutes := MinutesSince(lastSeen, now);
      if diffInMinutes < 5 then ActiveRecently
      else if diffInMinutes < 60 then ActiveMinutes(diffInMinutes)
      else
        var diffInHours := diffInMinutes / 60;
        MinutesToHours(now - lastSeen);
        if diffInHours < 24 then ActiveHours(diffInHours)
        else
          HoursToDays(now - lastSeen);
          ActiveDays(diffInHours / 24)
    else Offline
  }

  /** The text of a presence label. */
  function LabelText(l: StatusLabel): string {
    match l
    case NoStatus => ""
    case ActiveNow => "Active now"
    case ActiveRecently => "Active recently"
    case ActiveMinutes(m) => "Active " + NatToString(m) + "m ago"
    case ActiveHours(h) => "Active " + NatToString(h) + "h ago"
    case ActiveDays(d) => "Active " + NatToString(d) + "d ago"
    case Offline => "Offline"
  }

  predicate IsCount(l: StatusLabel) {
    l.ActiveMinutes? || l.ActiveHours? || l.ActiveDays?
  }

  function Count(l: StatusLabel): nat
    requires IsCount(l)
  {
    if l.ActiveMinutes? then l.minutes else if l.ActiveHours? then l.hours else l.days
  }

  /** A label with a count reads 'Active ', the digits, the unit letter and ' ago'. */
  lemma CountTextShape(l: StatusLabel)
    requires IsCount(l)
    ensures var t := LabelText(l);
            && |t| >= 13
            && '0' <= t[7] <= '9'
            && t[7..|t| - 5] == NatToString(Count(l))
            && t[|t| - 5] == (if l.ActiveMinutes? then 'm' else if l.ActiveHours? then 'h' else 'd')
  {
  }

  /** Different labels read differently, so the text loses nothing. */
  lemma LabelTextInjective(a: StatusLabel, b: StatusLabel)
    requires LabelText(a) == LabelText(b)
    ensures a == b
  {
    if IsCount(a) && IsCount(b) {
      CountTextShape(a);
      CountTextShape(b);
      NatToStringInjective(Count(a), Count(b));
    } else if IsCount(a) {
      CountTextShape(a);
    } else if IsCount(b) {
      CountTextShape(b);
    }
  }

  /** `getConversationStatus`: the presence line as displayed. */
  function GetConversationStatus(conv: Option<PresenceInfo>, now: int): (r: string)
    ensures conv.None? ==> r == ""
    ensures conv.Some? && conv.value.isOnline ==> r == "Active now"
    ensures conv.Some? && !conv.value.isOnline && conv.value.lastSeen.None? ==> r == "Offline"
  {
    LabelText(ConversationStatus(conv, now))
  }

  /** The user menu of the top bar. */
  class NavbarMenu {
    var showUserMenu: bool

    constructor ()
      ensures !showUserMenu
    {
      showUserMenu := false;
    }

    /** `handleLogout`: the menu closes only when signing out succeeded; a failure keeps it. */
    method HandleLogout(logoutSucceeded: bool)
      modifies this
      ensures logoutSucceeded ==> !showUserMenu
      ensures !logoutSucceeded ==> showUserMenu == old(showUserMenu)
    {
      if logoutSucceeded {
        showUserMenu := false;
      }
    }
  }
}

=== FILE: presence.dfy ===
/**
 * Time arithmetic shared by the presence and recency labels: millisecond timestamps, the
 * whole-minute difference `Math.floor((now - t) / 60000)` and its hour and day roll-ups.
 * For a positive divisor JavaScript's `Math.floor` of a quotient is Dafny's `/` on `int`,
 * so timestamps in the future (negative differences) are covered as they are in the browser.
 */
module Presence {

  import opened Wrappers

  const MINUTE_MS: int := 60000
  const HOUR_MS: int := 3600000
  const DAY_MS: int := 86400000

  /** What a selected conversation says about the other participant's presence. */
  datatype PresenceInfo = PresenceInfo(isOnline: bool, lastSeen: Option<int>)

  /** Whole minutes from `t` to `now`, rounded down. */
  function MinutesSince(t: int, now: int): int {
    (now - t) / MINUTE_MS
  }

  /** Rounding the minutes down to hours is rounding the milliseconds down to hours. */
  lemma MinutesToHours(d: int)
    ensures (d / MINUTE_MS) / 60 == d / HOUR_MS
  {
    var q := d / MINUTE_MS;
    var q2 := q / 60;
    assert d == MINUTE_MS * q + d % MINUTE_MS;
    assert q == 60 * q2 + q % 60;
    assert d == HOUR_MS * q2 + (MINUTE_MS * (q % 60) + d % MINUTE_MS);
    DivUnique(d, HOUR_MS, q2, MINUTE_MS * (q % 60) + d % MINUTE_MS);
  }

  /** Rounding the hours down to days is rounding the milliseconds down to days. */
  lemma HoursToDays(d: int)
    ensures (d / HOUR_MS) / 24 == d / DAY_MS
  {
    var q := d / HOUR_MS;
    var q2 := q / 24;
    assert d == HOUR_MS * q + d % HOUR_MS;
    assert q == 24 * q2 + q % 24;
    assert d == DAY_MS * q2 + (HOUR_MS * (q % 24) + d % HOUR_MS);
    DivUnique(d, DAY_MS, q2, HOUR_MS * (q % 24) + d % HOUR_MS);
  }

  /** Euclidean division has one quotient. */
  lemma DivUnique(a: int, b: int, q: int, r: int)
    requires 0 <= r < b && a == b * q + r
    ensures a / b == q
  {
    var q' := a / b;
    assert a == b * q' + a % b;
    MulOrder(b, q', q);
    MulOrder(b, q, q');
  }

  /** A smaller multiplier leaves room for a whole `b` below the larger product. */
  lemma MulOrder(b: int, x: int, y: int)
    requires 0 < b
    ensures x < y ==> b * x + b <= b * y
  {
    if x < y {
      assert b * y == b * x + b * (y - x);
      MulAtLeast(b, y - x);
    }
  }

  lemma {:induction false} MulAtLeast(b: int, k: int)
    requires 0 < b && 1 <= k
    ensures b <= b * k
    decreases k
  {
    if k > 1 {
      MulAtLeast(b, k - 1);
      assert b * k == b * (k - 1) + b;
    }
  }
}

=== FILE: sidebar.dfy ===
/**
 * The conversation list: the recency label of each chat, the case-insensitive filter, the
 * ids of the other participants and the cache of their profiles, the user search, the
 * record handed to the chat pane on selection, and starting a chat with a found user.
 */
module Sidebar {

  import opened Wrappers
  import opened Text
  import opened Presence
  import opened Store

  // ---------------------------------------------------------------- recency

  /** `formatLastMessageTime`, before it is turned into text. */
  datatype Recency =
    | Blank
    | JustNow
    | MinutesAgo(minutes: nat)
    | HoursAgo(hours: nat)
    | DaysAgo(days: nat)
    | OnDate(timestamp: int)

  /**
   * The recency of a chat's last message: nothing without a timestamp; 'now' under a whole
   * minute (and for a timestamp in the future); then whole minutes up to 59, whole hours up
   * to 23 and whole days up to 6; a week or more shows the calendar date.
   */
  function LastMessageRecency(ts: Option<int>, now: int): (r: Recency)
    ensures r.Blank? <==> ts.None?
    ensures r.JustNow? <==> ts.Some? && now - ts.value < MINUTE_MS
    ensures ts.Some? && ts.value > now ==> r.JustNow?
    ensures r.MinutesAgo? ==> 1 <= r.minutes <= 59 && r.minutes == (now - ts.value) / MINUTE_MS
    ensures r.HoursAgo? ==> 1 <= r.hours <= 23 && r.hours == (now - ts.value) / HOUR_MS
    ensures r.DaysAgo? ==> 1 <= r.days <= 6 && r.days == (now - ts.value) / DAY_MS
    ensures r.OnDate? <==> ts.Some? && now - ts.value >= 7 * DAY_MS
    ensures r.OnDate? ==> r.timestamp == ts.value
  {
    if ts.None? then Blank
    else
      var diffInMinutes := MinutesSince(ts.value, now);
      if diffInMinutes < 1 then JustNow
      else if diffInMinutes < 60 then MinutesAgo(diffInMinutes)
      else
        var diffInHours := diffInMinutes / 60;
        MinutesToHours(now - ts.value);
        if diffInHours < 24 then HoursAgo(diffInHours)
        else
          var diffInDays := diffInHours / 24;
          HoursToDays(now - ts.value);
          if diffInDays < 7 then DaysAgo(diffInDays) else OnDate(ts.value)
  }

  /** The recency as text; `localeDate` renders a calendar date the way the browser does. */
  function RecencyText(r: Recency, localeDate: int -> string): string {
    match r
    case Blank => ""
    case JustNow => "now"
    case MinutesAgo(m) => NatToString(m) + "m ago"
    case HoursAgo(h) => NatToString(h) + "h ago"
    case DaysAgo(d) => NatToString(d) + "d ago"
    case OnDate(t) => localeDate(t)
  }

  /** `formatLastMessageTime`. */
  function FormatLastMessageTime(ts: Option<int>, now: int, localeDate: int -> string): (r: string)
    ensures ts.None? ==> r == ""
    ensures ts.Some? && now - ts.value < MINUTE_MS ==> r == "now"
    ensures ts.Some? && now - ts.value >= 7 * DAY_MS ==> r == localeDate(ts.value)
  {
    RecencyText(LastMessageRecency(ts, now), localeDate)
  }

  // ---------------------------------------------------------------- conversations

  /** A chat as the list keeps it. */
  datatype Conversation = Conversation(id: string, participants: seq<string>,
                                       lastMessage: Option<string>, lastMessageTime: Option<int>)

  /** `participants.find(id => id !== uid)`. */
  function OtherParticipant(participants: seq<string>, uid: string): (r: Option<string>)
    ensures r.None? <==> forall i :: 0 <= i < |participants| ==> participants[i] == uid
    ensures r.Some? ==> exists i :: 0 <= i < |participants| && participants[i] == r.value &&
                          r.value != uid && forall k :: 0 <= k < i ==> participants[k] == uid
  {
    if participants == [] then None
    else if participants[0] != uid then
      Some(participants[0])
    else
      var r := OtherParticipant(participants[1..], uid);
      if r.Some? then
        var i :| 0 <= i < |participants[1..]| && participants[1..][i] == r.value &&
                 r.value != uid && forall k :: 0 <= k < i ==> participants[1..][k] == uid;
        assert forall k :: 0 <= k < i + 1 ==> participants[k] == uid;
        r
      else
        r
  }

  /** The cached profile of a chat's other participant, if there is one. */
  function OtherUser(c: Conversation, uid: string, cache: map<string, UserDoc>): Option<UserDoc> {
    var other := OtherParticipant(c.participants, uid);
    if other.Some? && other.value in cache then Some(cache[other.value]) else None
  }

  /** The filter test for a non-blank query: the other user's name or the last message contains it, in lower case. */
  predicate MatchesQuery(c: Conversation, query: string, uid: string, cache: map<string, UserDoc>) {
    var q := Lower(query);
    var u := OtherUser(c, uid, cache);
    (u.Some? && Contains(Lower(u.value.displayName), q)) ||
    (c.lastMessage.Some? && Contains(Lower(c.lastMessage.value), q))
  }

  /** Whether the list keeps a chat: always for a blank query, otherwise when it matches. */
  predicate Keeps(c: Conversation, query: string, uid: string, cache: map<string, UserDoc>) {
    Trim(query) == "" || MatchesQuery(c, query, uid, cache)
  }

  /**
   * `filteredConversations`: every chat while the trimmed query is blank; otherwise the
   * chats whose other user's name or last message contains the untrimmed query, ignoring case.
   */
  function FilterConversations(convs: seq<Conversation>, query: string, uid: string,
                               cache: map<string, UserDoc>): (r: seq<Conversation>)
    ensures forall c :: c in r <==> c in convs && Keeps(c, query, uid, cache)
  {
    Filter(convs, c => Keeps(c, query, uid, cache))
  }

  /** Filtering the chats never reorders them. */
  lemma FilterKeepsOrder(convs: seq<Conversation>, query: string, uid: string,
                         cache: map<string, UserDoc>)
    ensures SubsequenceOf(FilterConversations(convs, query, uid, cache), convs)
  {
    FilterIsSubsequence(convs, c => Keeps(c, query, uid, cache));
  }

  /** A query that trims to nothing shows the whole list. */
  lemma BlankQueryKeepsAll(convs: seq<Conversation>, query: string, uid: string,
                           cache: map<string, UserDoc>)
    requires Trim(query) == ""
    ensures FilterConversations(convs, query, uid, cache) == convs
  {
    FilterKeepsAll(convs, c => Keeps(c, query, uid, cache));
  }

  /** A query with a visible character keeps exactly the matching chats. */
  lemma NonBlankQueryKeepsMatches(convs: seq<Conversation>, query: string, uid: string,
                                  cache: map<string, UserDoc>, c: Conversation)
    requires !AllSpace(query)
    ensures c in FilterConversations(convs, query, uid, cache) <==>
              c in convs && MatchesQuery(c, query, uid, cache)
  {
    TrimEmptyIff(query);
  }

  /** Some chat of the list has `id` among its participants. */
  predicate ParticipatesIn(chats: seq<Conversation>, id: string) {
    exists i :: 0 <= i < |chats| && id in chats[i].participants
  }

  /**
   * The participant ids the list fetches profiles for, gathered chat by chat into a set:
   * every participant but the viewer, each once.
   */
  method CollectOtherUserIds(chats: seq<Conversation>, uid: string) returns (ids: seq<string>)
    ensures forall id :: id in ids <==> id != uid && ParticipatesIn(chats, id)
    ensures forall i, j :: 0 <= i < j < |ids| ==> ids[i] != ids[j]
  {
    ids := [];
    var c := 0;
    while c < |chats|
      invariant 0 <= c <= |chats|
      invariant forall id :: id in ids <==> id != uid && ParticipatesIn(chats[..c], id)
      invariant forall i, j :: 0 <= i < j < |ids| ==> ids[i] != ids[j]
    {
      var ps := chats[c].participants;
      var p := 0;
      while p < |ps|
        invariant 0 <= p <= |ps|
        invariant forall id :: id in ids <==>
                    id != uid && (ParticipatesIn(chats[..c], id) || id in ps[..p])
        invariant forall i, j :: 0 <= i < j < |ids| ==> ids[i] != ids[j]
      {
        if ps[p] != uid && ps[p] !in ids {
          ids := ids + [ps[p]];
        }
        assert ps[..p + 1] == ps[..p] + [ps[p]];
        p := p + 1;
      }
      assert ps[..p] == ps;
      assert forall id :: ParticipatesIn(chats[..c + 1], id) <==>
                          ParticipatesIn(chats[..c], id) || id in chats[c].participants by {
        forall id ensures ParticipatesIn(chats[..c + 1], id) <==>
                          ParticipatesIn(chats[..c], id) || id in chats[c].participants {
          if ParticipatesIn(chats[..c + 1], id) {
            var i :| 0 <= i < c + 1 && id in chats[..c + 1][i].participants;
            if i < c {
              assert chats[..c][i] == chats[..c + 1][i];
            }
          }
          if ParticipatesIn(chats[..c], id) {
            var i :| 0 <= i < c && id in chats[..c][i].participants;
            assert chats[..c + 1][i] == chats[..c][i];
          }
          if id in chats[c].participants {
            assert chats[..c + 1][c] == chats[c];
          }
        }
      }
      c := c + 1;
    }
    assert chats[..c] == chats;
  }

  /**
   * The fetching loop of `fetchUsersData`: the ids whose profile the consulted cache lacks are
   * looked up, and the ones that exist are gathered.
   */
  method FetchMissing(ids: seq<string>, consulted: map<string, UserDoc>, users: map<string, UserDoc>)
    returns (fetched: map<string, UserDoc>)
    ensures forall id :: id in fetched <==> id in ids && id !in consulted && id in users
    ensures forall id :: id in fetched ==> fetched[id] == users[id]
  {
    fetched := map[];
    var i := 0;
    while i < |ids|
      invariant 0 <= i <= |ids|
      invariant forall id :: id in fetched <==> id in ids[..i] && id !in consulted && id in users
      invariant forall id :: id in fetched ==> fetched[id] == users[id]
    {
      var id := ids[i];
      if id !in consulted && id in users {
        fetched := fetched[id := users[id]];
      }
      assert ids[..i + 1] == ids[..i] + [id];
      i := i + 1;
    }
    assert ids[..i] == ids;
  }

  /**
   * The user search behind the list: runs only when the trimmed query is longer than one
   * character, on the trimmed query, and drops the viewer from the results.
   */
  function SearchResults(query: string, uid: string, index: seq<UserEntry>): (r: seq<UserEntry>)
    ensures |Trim(query)| <= 1 ==> r == []
    ensures |Trim(query)| > 1 ==> forall u :: u in r <==> u in SearchUsers(Trim(query), index) && u.id != uid
    ensures forall u :: u in r ==> u.id != uid && u in index
  {
    if |Trim(query)| <= 1 then [] else WithoutUser(SearchUsers(Trim(query), index), uid)
  }

  function WithoutUser(us: seq<UserEntry>, uid: string): (r: seq<UserEntry>)
    ensures forall u :: u in r <==> u in us && u.id != uid
  {
    if us == [] then []
    else
      assert forall u :: u in us <==> u == us[0] || u in us[1..];
      (if us[0].id != uid then [us[0]] else []) + WithoutUser(us[1..], uid)
  }

  /** Removing the viewer is a filter, so the search results keep their order. */
  lemma {:induction false} WithoutUserIsFilter(us: seq<UserEntry>, uid: string)
    ensures WithoutUser(us, uid) == Filter(us, (u: UserEntry) => u.id != uid)
    ensures SubsequenceOf(WithoutUser(us, uid), us)
  {
    if us != [] {
      WithoutUserIsFilter(us[1..], uid);
      if us[0].id == uid {
        assert [] + WithoutUser(us[1..], uid) == WithoutUser(us[1..], uid);
      }
    }
    FilterIsSubsequence(us, (u: UserEntry) => u.id != uid);
  }

  /** The record handed to the chat pane when a conversation is selected. */
  datatype Selected = Selected(id: string, participants: seq<string>, name: string,
                               avatar: Option<string>, lastMessage: string, lastMessageTime: string,
                               presence: PresenceInfo)

  /**
   * `handleSelectConversation`: the other participant's cached profile supplies the name
   * ('User' when unknown), picture and presence; a chat with no message yet says so.
   */
  function SelectConversation(c: Conversation, uid: string, cache: map<string, UserDoc>,
                              now: int, localeDate: int -> string): (r: Selected)
    ensures r.id == c.id && r.participants == c.participants
    ensures r.name != ""
    ensures OtherUser(c, uid, cache).None? ==>
              r.name == "User" && r.avatar.None? && r.presence == PresenceInfo(false, None)
    ensures OtherUser(c, uid, cache).Some? ==>
              var u := OtherUser(c, uid, cache).value;
              r.presence == PresenceInfo(u.isOnline, Some(u.lastSeen)) &&
              (u.displayName != "" ==> r.name == u.displayName) &&
              (u.displayName == "" ==> r.name == "User") &&
              (r.avatar.Some? <==> Truthy(u.photoURL)) && (r.avatar.Some? ==> r.avatar == u.photoURL)
    ensures c.lastMessage.None? || c.lastMessage.value == "" ==> r.lastMessage == "No messages yet"
    ensures Truthy(c.lastMessage) ==> r.lastMessage == c.lastMessage.value
    ensures r.lastMessageTime == FormatLastMessageTime(c.lastMessageTime, now, localeDate)
  {
    var u := OtherUser(c, uid, cache);
    Selected(
      c.id, c.participants,
      if u.Some? then Or(u.value.displayName, "User") else "User",
      if u.Some? && Truthy(u.value.photoURL) then u.value.photoURL else None,
      OrNull(c.lastMessage, "No messages yet"),
      FormatLastMessageTime(c.lastMessageTime, now, localeDate),
      if u.Some? then PresenceInfo(u.value.isOnline, Some(u.value.lastSeen)) else PresenceInfo(false, None))
  }

  /**
   * A chat started with a user who was not cached yet is handed over as 'User', although the
   * user is cached by then: selecting the same chat again shows the user's own name.
   */
  lemma NewChatSelectedWithStaleCache(uid: string, user: UserEntry, newId: string, now: int,
                                      cache: map<string, UserDoc>, localeDate: int -> string)
    requires user.id != uid && user.id !in cache && user.doc.displayName != ""
    ensures var c := Conversation(newId, [uid, user.id], None, Some(now));
            && SelectConversation(c, uid, cache, now, localeDate).name == "User"
            && SelectConversation(c, uid, cache[user.id := user.doc], now, localeDate).name == user.doc.displayName
  {
    var c := Conversation(newId, [uid, user.id], None, Some(now));
    assert OtherParticipant(c.participants, uid) == Some(user.id);
  }

  /** The rows of the chats tab: a chat whose other participant is not cached is not drawn. */
  function ListedConversations(convs: seq<Conversation>, uid: string, cache: map<string, UserDoc>)
    : (r: seq<Conversation>)
    ensures forall c :: c in r <==> c in convs && OtherUser(c, uid, cache).Some?
    ensures |r| <= |convs|
  {
    if convs == [] then []
    else
      var rest := ListedConversations(convs[1..], uid, cache);
      assert forall c :: c in convs <==> c == convs[0] || c in convs[1..];
      if OtherUser(convs[0], uid, cache).Some? then [convs[0]] + rest else rest
  }

  /** The drawn chats are the list filtered by a cached other participant, in list order. */
  lemma {:induction false} ListedConversationsIsFilter(convs: seq<Conversation>, uid: string,
                                                       cache: map<string, UserDoc>)
    ensures ListedConversations(convs, uid, cache) == Filter(convs, c => OtherUser(c, uid, cache).Some?)
    ensures SubsequenceOf(ListedConversations(convs, uid, cache), convs)
  {
    if convs != [] {
      ListedConversationsIsFilter(convs[1..], uid, cache);
    }
    FilterIsSubsequence(convs, c => OtherUser(c, uid, cache).Some?);
  }

  /** `conversations.find(conv => conv.participants.includes(id))`. */
  function FindWith(convs: seq<Conversation>, id: string): (r: Option<Conversation>)
    ensures r.None? <==> forall i :: 0 <= i < |convs| ==> id !in convs[i].participants
    ensures r.Some? ==> exists i :: 0 <= i < |convs| && convs[i] == r.value && id in r.value.participants &&
                          forall k :: 0 <= k < i ==> id !in convs[k].participants
  {
    if convs == [] then None
    else if id in convs[0].participants then
      Some(convs[0])
    else
      var r := FindWith(convs[1..], id);
      if r.Some? then
        var i :| 0 <= i < |convs[1..]| && convs[1..][i] == r.value && id in r.value.participants &&
                 forall k :: 0 <= k < i ==> id !in convs[1..][k].participants;
        assert forall k :: 0 <= k < i + 1 ==> id !in convs[k].participants;
        r
      else
        r
  }

  /** The list's state. */
  class SidebarView {
    const uid: string
    var conversations: seq<Conversation>
    var usersData: map<string, UserDoc>
    /** The cache as it was when the chat listener started; its callback keeps reading this one. */
    var listenerCache: map<string, UserDoc>
    var searchQuery: string
    var activeTab: string
    var searchResults: seq<UserEntry>
    /** The last conversation handed to the chat pane. */
    var selected: Option<Selected>

    constructor (uid: string)
      ensures this.uid == uid
      ensures conversations == [] && usersData == map[] && listenerCache == map[]
      ensures searchQuery == "" && activeTab == "chats" && searchResults == [] && selected.None?
    {
      this.uid := uid;
      conversations, usersData, listenerCache := [], map[], map[];
      searchQuery, activeTab, searchResults, selected := "", "chats", [], None;
    }

    /** The chat listener starts with the cache of the render that started it. */
    method StartListening()
      modifies this
      ensures listenerCache == old(usersData)
      ensures conversations == old(conversations) && usersData == old(usersData)
      ensures selected == old(selected)
      ensures searchQuery == old(searchQuery) && activeTab == old(activeTab)
      ensures searchResults == old(searchResults)
    {
      listenerCache := usersData;
    }

    /**
     * A snapshot of the viewer's chats: the list is replaced, and the profiles of the other
     * participants missing from the cache the listener captured are fetched and merged in,
     * the fetched entries winning over the current ones.
     */
    method OnChatsSnapshot(chats: seq<Conversation>, users: map<string, UserDoc>)
      modifies this
      ensures conversations == chats
      ensures forall id :: id in usersData <==>
                id in old(usersData) ||
                (id != uid && ParticipatesIn(chats, id) && id !in listenerCache && id in users)
      ensures forall id :: id in usersData ==>
                usersData[id] == (if id in users && id != uid && ParticipatesIn(chats, id) && id !in listenerCache
                                  then users[id] else old(usersData)[id])
      ensures listenerCache == old(listenerCache) && selected == old(selected)
      ensures searchQuery == old(searchQuery) && activeTab == old(activeTab)
      ensures searchResults == old(searchResults)
    {
      conversations := chats;
      var ids := CollectOtherUserIds(chats, uid);
      if |ids| == 0 {
        return;
      }
      var fetched := FetchMissing(ids, listenerCache, users);
      usersData := usersData + fetched;
    }

    /** The debounced search effect, once the timer has run. */
    method OnSearchTimer(index: seq<UserEntry>)
      modifies this
      ensures searchResults == SearchResults(searchQuery, uid, index)
      ensures conversations == old(conversations) && usersData == old(usersData)
      ensures searchQuery == old(searchQuery) && selected == old(selected)
      ensures activeTab == old(activeTab) && listenerCache == old(listenerCache)
    {
      searchResults := SearchResults(searchQuery, uid, index);
    }

    /**
     * `handleStartNewChat`: the first listed chat that already includes the user is selected
     * and nothing is created; otherwise a chat of the viewer and the user is created, the
     * user is cached, the new chat is selected (with the cache of before, so an uncached
     * user is shown as 'User'), the query is cleared and the chats tab is shown.
     */
    method HandleStartNewChat(store: Firestore, user: UserEntry, now: int, newId: string,
                              localeDate: int -> string)
      requires store.Valid()
      requires newId != "" && newId !in store.chats
      modifies this, store
      ensures store.Valid()
      ensures FindWith(old(conversations), user.id).Some? ==>
                && store.chats == old(store.chats)
                && selected == Some(SelectConversation(FindWith(old(conversations), user.id).value,
                                                       uid, old(usersData), now, localeDate))
                && usersData == old(usersData) && searchQuery == old(searchQuery)
                && activeTab == old(activeTab)
      ensures FindWith(old(conversations), user.id).None? ==>
                && store.chats == old(store.chats)[newId := ChatDoc([uid, user.id], now, None, now)]
                && usersData == old(usersData)[user.id := user.doc]
                && selected == Some(SelectConversation(Conversation(newId, [uid, user.id], None, Some(now)),
                                                       uid, old(usersData), now, localeDate))
                && searchQuery == "" && activeTab == "chats"
      ensures store.users == old(store.users) && store.chatMessages == old(store.chatMessages)
      ensures conversations == old(conversations)
      ensures searchResults == old(searchResults) && listenerCache == old(listenerCache)
    {
      var existing := FindWith(conversations, user.id);
      if existing.Some? {
        selected := Some(SelectConversation(existing.value, uid, usersData, now, localeDate));
        return;
      }
      var chatId := store.CreateChat([uid, user.id], now, newId);
      var newConversation := Conversation(chatId, [uid, user.id], None, Some(now));
      var cacheBefore := usersData;
      usersData := usersData[user.id := user.doc];
      selected := Some(SelectConversation(newConversation, uid, cacheBefore, now, localeDate));
      searchQuery := "";
      activeTab := "chats";
    }
  }
}

=== FILE: store.dfy ===
/**
 * The backend helpers of the chat client: the user, chat and message documents, the
 * attachment check that runs before an upload, the display-name prefix search, and the
 * document store those helpers write (users, chats, each chat's `messages`
 * subcollection, and the top-level `messages` collection that one view reads).
 */
module Store {

  import opened Wrappers
  import opened Text

  /** The first code point of the private-use area, the high end of the prefix range. */
  const HIGH_SENTINEL: char := '\U{F8FF}'
  /** The most users one prefix search returns. */
  const SEARCH_LIMIT: nat := 10
  const DEFAULT_BIO: string := "Hey there! I am using ChatApp."
  const IMAGE_SUMMARY: string := "\U{1F4F7} Image"
  const FILE_SUMMARY: string := "\U{1F4CE} File"

  // ---------------------------------------------------------------- users

  /** The signed-in account as the authentication layer reports it. */
  datatype AuthUser = AuthUser(uid: string, displayName: Option<string>,
                               email: Option<string>, photoURL: Option<string>)

  /** The optional extra profile fields a caller may pass when the user document is created. */
  datatype AdditionalData = AdditionalData(fullName: Option<string>, bio: Option<string>,
                                           phone: Option<string>)

  datatype UserDoc = UserDoc(displayName: string, email: Option<string>, photoURL: Option<string>,
                             bio: string, phone: Option<string>, isOnline: bool,
                             lastSeen: int, createdAt: int, fullName: Option<string>)

  /** A user document together with its id, as a query returns it. */
  datatype UserEntry = UserEntry(id: string, doc: UserDoc)

  /**
   * The document written for a first sign-in. The explicit extra fields are spread last,
   * so a `bio` or `phone` the caller passes wins even when it is empty.
   */
  function NewUserDoc(user: AuthUser, extra: AdditionalData, now: int): (d: UserDoc)
    ensures d.displayName != ""
    ensures user.displayName.Some? && user.displayName.value != "" ==> d.displayName == user.displayName.value
    ensures !Truthy(user.displayName) && Truthy(extra.fullName) ==> d.displayName == extra.fullName.value
    ensures !Truthy(user.displayName) && !Truthy(extra.fullName) ==> d.displayName == "User"
    ensures d.email == user.email && d.fullName == extra.fullName
    ensures d.bio == (if extra.bio.Some? then extra.bio.value else DEFAULT_BIO)
    ensures d.phone == extra.phone
    ensures d.photoURL == (if Truthy(user.photoURL) then user.photoURL else None)
    ensures d.isOnline && d.lastSeen == now && d.createdAt == now
  {
    UserDoc(
      displayName := OrNull(user.displayName, OrNull(extra.fullName, "User")),
      email := user.email,
      photoURL := if user.photoURL.Some? && user.photoURL.value != "" then user.photoURL else None,
      bio := if extra.bio.Some? then extra.bio.value else DEFAULT_BIO,
      phone := extra.phone,
      isOnline := true,
      lastSeen := now,
      createdAt := now,
      fullName := extra.fullName)
  }

  // ---------------------------------------------------------------- search

  /** `term <= name && name <= term + ''`, the range the prefix search asks for. */
  predicate InPrefixRange(name: string, term: string) {
    LexLe(term, name) && LexLe(name, term + [HIGH_SENTINEL])
  }

  /** The users of a collection snapshot (in index order) whose display name lies in the range. */
  function RangeMatches(term: string, index: seq<UserEntry>): (r: seq<UserEntry>)
    ensures forall u :: u in r <==> u in index && InPrefixRange(u.doc.displayName, term)
    ensures |r| <= |index|
  {
    if index == [] then []
    else
      var rest := RangeMatches(term, index[1..]);
      assert forall u :: u in index <==> u == index[0] || u in index[1..];
      if InPrefixRange(index[0].doc.displayName, term) then [index[0]] + rest else rest
  }

  /** The range matches are the index filtered by the range, so they keep the index's order. */
  lemma {:induction false} RangeMatchesIsFilter(term: string, index: seq<UserEntry>)
    ensures RangeMatches(term, index) == Filter(index, (u: UserEntry) => InPrefixRange(u.doc.displayName, term))
    ensures SubsequenceOf(RangeMatches(term, index), index)
  {
    if index != [] {
      RangeMatchesIsFilter(term, index[1..]);
    }
    FilterIsSubsequence(index, (u: UserEntry) => InPrefixRange(u.doc.displayName, term));
  }

  /**
   * `searchUsers`: nothing for a term shorter than two characters, otherwise the first ten
   * users (in index order) whose display name lies in the prefix range. `index` stands for
   * the users as the backend orders them for this range query (by display name, then by
   * document id); that order decides which ten the limit keeps.
   */
  function SearchUsers(term: string, index: seq<UserEntry>): (r: seq<UserEntry>)
    ensures |term| < 2 ==> r == []
    ensures |r| <= SEARCH_LIMIT
    ensures forall u :: u in r ==> u in index && InPrefixRange(u.doc.displayName, term)
    ensures |term| >= 2 ==> |r| <= |RangeMatches(term, index)| && r == RangeMatches(term, index)[..|r|]
    ensures |term| >= 2 && |RangeMatches(term, index)| <= SEARCH_LIMIT ==>
              forall u :: u in index && InPrefixRange(u.doc.displayName, term) ==> u in r
    ensures |term| >= 2 && |RangeMatches(term, index)| > SEARCH_LIMIT ==> |r| == SEARCH_LIMIT
  {
    if |term| < 2 then []
    else
      var m := RangeMatches(term, index);
      if |m| <= SEARCH_LIMIT then m else m[..SEARCH_LIMIT]
  }

  /** Comparing two strings that share a prefix compares what follows it. */
  lemma {:induction false} LexLeCommonPrefix(p: string, a: string, b: string)
    ensures LexLe(p + a, p + b) <==> LexLe(a, b)
  {
    if p != [] {
      assert (p + a)[1..] == p[1..] + a;
      assert (p + b)[1..] == p[1..] + b;
      LexLeCommonPrefix(p[1..], a, b);
    } else {
      assert p + a == a && p + b == b;
    }
  }

  /** A name within the range starts with the term. */
  lemma {:induction false} InRangeStartsWith(name: string, term: string)
    requires InPrefixRange(name, term)
    ensures StartsWith(name, term)
  {
    if term != [] {
      assert name != [];
      assert (term + [HIGH_SENTINEL])[0] == term[0];
      assert (term + [HIGH_SENTINEL])[1..] == term[1..] + [HIGH_SENTINEL];
      assert name[0] == term[0];
      InRangeStartsWith(name[1..], term[1..]);
    }
  }

  /**
   * The range is a prefix match: a name lies in it exactly when it starts with the term and
   * whatever follows the term is empty, starts below the sentinel, or is the sentinel alone.
   */
  lemma InPrefixRangeIff(name: string, term: string)
    ensures InPrefixRange(name, term) <==>
              StartsWith(name, term) &&
              (|name| == |term| || name[|term|] < HIGH_SENTINEL ||
               (name[|term|] == HIGH_SENTINEL && |name| == |term| + 1))
  {
    if StartsWith(name, term) {
      var rest := name[|term|..];
      assert name == term + rest;
      PrefixLexLe(term, name);
      LexLeCommonPrefix(term, rest, [HIGH_SENTINEL]);
      if rest != [] {
        assert rest[0] == name[|term|];
        assert LexLe(rest[1..], []) <==> rest[1..] == [];
      }
    } else if InPrefixRange(name, term) {
      InRangeStartsWith(name, term);
    }
  }

  // ---------------------------------------------------------------- attachments

  /** A file picked in the browser: its name, MIME type and size in bytes. */
  datatype FileInfo = FileInfo(name: string, mime: string, size: nat)

  /**
   * The allow-lists and per-kind ceilings (in megabytes) the attachment check uses. The
   * helper file reads them as free identifiers; the model takes them as a parameter.
   */
  datatype UploadPolicy = UploadPolicy(imageTypes: seq<string>, docTypes: seq<string>,
                                       maxImageMB: nat, maxFileMB: nat)

  /** What `uploadChatFile` resolves to: the download URL and the file's metadata. */
  datatype UploadResult = UploadResult(url: string, fileName: string, fileSize: nat, kind: string)

  datatype UploadError = MissingArgument | UnsupportedType | TooLarge(maxMB: nat) | TransferFailed

  /** The ceiling in bytes for one kind of attachment. */
  function CeilingBytes(policy: UploadPolicy, isImage: bool): nat {
    (if isImage then policy.maxImageMB else policy.maxFileMB) * 1024 * 1024
  }

  /**
   * The checks that run before any byte is sent: all three arguments present, the MIME
   * type on an allow-list, the size within the ceiling of its kind. On success gives
   * whether the file is an image.
   */
  function CheckUpload(chatId: string, file: Option<FileInfo>, senderGiven: bool,
                       policy: UploadPolicy): (r: Result<bool, UploadError>)
    ensures chatId == "" || file.None? || !senderGiven ==> r == Err(MissingArgument)
    ensures r.Ok? <==> chatId != "" && file.Some? && senderGiven
                       && (file.value.mime in policy.imageTypes || file.value.mime in policy.docTypes)
                       && file.value.size <= CeilingBytes(policy, file.value.mime in policy.imageTypes)
    ensures r.Ok? ==> r.value == (file.value.mime in policy.imageTypes)
    ensures r == Err(UnsupportedType) <==>
              chatId != "" && file.Some? && senderGiven
              && file.value.mime !in policy.imageTypes && file.value.mime !in policy.docTypes
  {
    if chatId == "" || file.None? || !senderGiven then Err(MissingArgument)
    else
      var f := file.value;
      var isImage := f.mime in policy.imageTypes;
      var allowed := if isImage then policy.imageTypes else policy.imageTypes + policy.docTypes;
      if f.mime !in allowed then Err(UnsupportedType)
      else if f.size > CeilingBytes(policy, isImage) then
        Err(TooLarge(if isImage then policy.maxImageMB else policy.maxFileMB))
      else Ok(isImage)
  }

  /**
   * `uploadChatFile`: the checks, then the transfer (whose outcome, a download URL or a
   * failure, is the parameter `transfer`), then the result record. The stored name is the
   * sanitized file name, or the sanitized 'image'/'file' when the file has no name.
   */
  function UploadChatFile(chatId: string, file: Option<FileInfo>, senderGiven: bool,
                          policy: UploadPolicy, sanitize: string -> string,
                          transfer: Option<string>): (r: Result<UploadResult, UploadError>)
    ensures CheckUpload(chatId, file, senderGiven, policy).Err? ==>
              r == Err(CheckUpload(chatId, file, senderGiven, policy).error)
    ensures r.Ok? <==> CheckUpload(chatId, file, senderGiven, policy).Ok? && transfer.Some?
    ensures r.Ok? ==>
              && r.value.url == transfer.value
              && r.value.fileSize == file.value.size
              && (r.value.kind == "image" <==> file.value.mime in policy.imageTypes)
              && (r.value.kind == "image" || r.value.kind == "file")
              && r.value.fileName == sanitize(Or(file.value.name, r.value.kind))
  {
    match CheckUpload(chatId, file, senderGiven, policy)
    case Err(e) => Err(e)
    case Ok(isImage) =>
      var f := file.value;
      var safeName := sanitize(Or(f.name, if isImage then "image" else "file"));
      if transfer.None? then Err(TransferFailed)
      else Ok(UploadResult(transfer.value, safeName, f.size, if isImage then "image" else "file"))
  }

  /** A rejected file is rejected whatever the transfer would have done: no transfer starts. */
  lemma RejectionPrecedesTransfer(chatId: string, file: Option<FileInfo>, senderGiven: bool,
                                  policy: UploadPolicy, sanitize: string -> string,
                                  t1: Option<string>, t2: Option<string>)
    requires CheckUpload(chatId, file, senderGiven, policy).Err?
    ensures UploadChatFile(chatId, file, senderGiven, policy, sanitize, t1)
         == UploadChatFile(chatId, file, senderGiven, policy, sanitize, t2)
         != Err(TransferFailed)
  {
  }

  /** Sizes up to and including the ceiling pass; one byte more is refused as too large. */
  lemma CeilingIsInclusive(chatId: string, f: FileInfo, policy: UploadPolicy)
    requires chatId != ""
    requires f.mime in policy.imageTypes || f.mime in policy.docTypes
    ensures var isImage := f.mime in policy.imageTypes;
            var limit := CeilingBytes(policy, isImage);
            && CheckUpload(chatId, Some(f.(size := limit)), true, policy) == Ok(isImage)
            && CheckUpload(chatId, Some(f.(size := limit + 1)), true, policy)
               == Err(TooLarge(if isImage then policy.maxImageMB else policy.maxFileMB))
  {
  }

  // ---------------------------------------------------------------- chats and messages

  /** A chat document; `lastMessage` is null until the first message is sent. */
  datatype ChatDoc = ChatDoc(participants: seq<string>, createdAt: int,
                             lastMessage: Option<string>, lastMessageTime: int)

  /** A chat document together with its id. */
  datatype ChatEntry = ChatEntry(id: string, doc: ChatDoc)

  /**
   * What a message's `fileData` holds: normally a download URL; the ChatInterface send path
   * passes the whole upload record instead.
   */
  datatype FileRef = Url(url: string) | Record(record: UploadResult)

  /** JavaScript truthiness of a `fileUrl` argument: an empty URL is falsy, a record never. */
  predicate FileRefTruthy(f: Option<FileRef>) {
    f.Some? && (f.value.Url? ==> f.value.url != "")
  }

  /** The fields `fileData`, `fileName` and `fileSize`, which a message has all or none of. */
  datatype Attachment = Attachment(fileData: FileRef, fileName: string, fileSize: Option<nat>)

  /** The quoted message a reply carries. */
  datatype ReplyQuote = ReplyQuote(senderName: Option<string>, content: Option<string>)

  /**
   * A message document. `kind` is the `type` field, an arbitrary string. `fileUrl`,
   * `chatId`, `deleted` and `replyTo` are fields some readers look at; no writer in this
   * code base ever sets them.
   */
  datatype Message = Message(id: string, senderId: string, content: Option<string>, kind: string,
                             timestamp: Option<int>, status: string,
                             attachment: Option<Attachment>, fileUrl: Option<string>,
                             chatId: Option<string>, deleted: Option<bool>,
                             replyTo: Option<ReplyQuote>)
  {
    function FileName(): Option<string> {
      if attachment.Some? then Some(attachment.value.fileName) else None
    }
  }

  /** The message document `sendMessage` writes. */
  function BuildMessage(id: string, senderId: string, content: Option<string>, kind: string,
                        fileUrl: Option<FileRef>, fileName: Option<string>, fileSize: Option<nat>,
                        sanitize: string -> string, now: int): (m: Message)
    ensures m.id == id && m.senderId == senderId && m.kind == kind && m.timestamp == Some(now)
    ensures m.status == "sent"
    ensures m.content.None? <==> content.None? || content.value == ""
    ensures m.content.Some? ==> m.content == content
    ensures m.attachment.Some? <==> FileRefTruthy(fileUrl)
    ensures m.attachment.Some? ==>
              && m.attachment.value.fileData == fileUrl.value
              && m.attachment.value.fileName == sanitize(OrNull(fileName, ""))
              && (m.attachment.value.fileSize.Some? <==> fileSize.Some? && fileSize.value != 0)
              && (m.attachment.value.fileSize.Some? ==> m.attachment.value.fileSize == fileSize)
    ensures m.fileUrl.None? && m.chatId.None? && m.deleted.None? && m.replyTo.None?
  {
    Message(
      id := id,
      senderId := senderId,
      content := if content.Some? && content.value != "" then content else None,
      kind := kind,
      timestamp := Some(now),
      status := "sent",
      attachment :=
        if FileRefTruthy(fileUrl) then
          Some(Attachment(fileUrl.value, sanitize(OrNull(fileName, "")),
                          if fileSize.Some? && fileSize.value != 0 then fileSize else None))
        else None,
      fileUrl := None,
      chatId := None,
      deleted := None,
      replyTo := None)
  }

  /** The chat's `lastMessage` after a send, chosen by the message type. */
  function Summary(kind: string, content: Option<string>, storedFileName: Option<string>): (s: string)
    ensures kind == "text" ==> s == OrNull(content, "")
    ensures kind == "image" ==> s == IMAGE_SUMMARY
    ensures kind != "text" && kind != "image" ==> s == OrNull(storedFileName, FILE_SUMMARY)
  {
    if kind == "text" then OrNull(content, "")
    else if kind == "image" then IMAGE_SUMMARY
    else OrNull(storedFileName, FILE_SUMMARY)
  }

  /** How a stored message reads as a chat summary. */
  function SummaryOf(m: Message): string {
    if m.kind == "text" then m.content.GetOr("")
    else if m.kind == "image" then IMAGE_SUMMARY
    else OrNull(m.FileName(), FILE_SUMMARY)
  }

  /** The summary `sendMessage` writes is the summary of the message it stored. */
  lemma SummaryDescribesStoredMessage(id: string, senderId: string, content: Option<string>,
                                      kind: string, fileUrl: Option<FileRef>,
                                      fileName: Option<string>, fileSize: Option<nat>,
                                      sanitize: string -> string, now: int)
    ensures var m := BuildMessage(id, senderId, content, kind, fileUrl, fileName, fileSize, sanitize, now);
            Summary(kind, content, m.FileName()) == SummaryOf(m)
  {
  }

  /** A text message with no content, or a file message without an attachment, reads as a placeholder. */
  lemma SummaryPlaceholders(id: string, senderId: string, kind: string, fileName: Option<string>,
                            fileSize: Option<nat>, sanitize: string -> string, now: int)
    ensures kind == "text" ==>
              SummaryOf(BuildMessage(id, senderId, None, kind, None, fileName, fileSize, sanitize, now)) == ""
    ensures kind != "text" && kind != "image" ==>
              SummaryOf(BuildMessage(id, senderId, Some("x"), kind, None, fileName, fileSize, sanitize, now))
              == FILE_SUMMARY
  {
  }

  /** The messages of `msgs` other than those with the given id, in order. */
  function WithoutId(msgs: seq<Message>, id: string): (r: seq<Message>)
    ensures forall m :: m in r <==> m in msgs && m.id != id
    ensures |r| <= |msgs|
  {
    if msgs == [] then []
    else
      var rest := WithoutId(msgs[1..], id);
      assert forall m :: m in msgs <==> m == msgs[0] || m in msgs[1..];
      if msgs[0].id == id then rest else [msgs[0]] + rest
  }

  /** Removing by id keeps the remaining messages in their order. */
  lemma {:induction false} WithoutIdKeepsOrder(msgs: seq<Message>, id: string)
    ensures SubsequenceOf(WithoutId(msgs, id), msgs)
  {
    if msgs != [] {
      WithoutIdKeepsOrder(msgs[1..], id);
      var rest := WithoutId(msgs[1..], id);
      if msgs[0].id != id {
        assert ([msgs[0]] + rest)[1..] == rest;
      } else if rest != [] {
        assert SubsequenceOf(rest, msgs[1..]);
      }
    }
  }

  /**
   * Removing by id works piece by piece: on a list cut in two it is the removal from each
   * part, so a message is dropped exactly when its own id matches and nothing is reordered
   * or merged.
   */
  lemma {:induction false} WithoutIdConcat(a: seq<Message>, b: seq<Message>, id: string)
    ensures WithoutId(a + b, id) == WithoutId(a, id) + WithoutId(b, id)
  {
    if a == [] {
      assert a + b == b;
    } else {
      assert (a + b)[0] == a[0];
      assert (a + b)[1..] == a[1..] + b;
      WithoutIdConcat(a[1..], b, id);
    }
  }

  /** A single message is kept exactly when its id differs. */
  lemma WithoutIdSingle(m: Message, id: string)
    ensures WithoutId([m], id) == if m.id == id then [] else [m]
  {
    assert [m][1..] == [];
  }

  /** No two messages of one list share an id. */
  predicate DistinctIds(msgs: seq<Message>) {
    forall i, j :: 0 <= i < j < |msgs| ==> msgs[i].id != msgs[j].id
  }

  lemma {:induction false} WithoutIdKeepsDistinct(msgs: seq<Message>, id: string)
    requires DistinctIds(msgs)
    ensures DistinctIds(WithoutId(msgs, id))
  {
    if msgs != [] {
      WithoutIdKeepsDistinct(msgs[1..], id);
      var rest := WithoutId(msgs[1..], id);
      if msgs[0].id != id {
        forall j | 0 <= j < |rest| ensures msgs[0].id != rest[j].id {
          assert rest[j] in msgs[1..];
        }
      }
    }
  }

  /**
   * `where('chatId', '==', chatId), where('deleted', '==', false)`: the filter the
   * ChatInterface view puts on the top-level `messages` collection.
   */
  predicate MatchesViewQuery(m: Message, chatId: string) {
    m.chatId == Some(chatId) && m.deleted == Some(false)
  }

  /** No message `sendMessage` writes can satisfy that filter: it has neither field. */
  lemma SentMessageMissesViewQuery(id: string, senderId: string, content: Option<string>,
                                   kind: string, fileUrl: Option<FileRef>,
                                   fileName: Option<string>, fileSize: Option<nat>,
                                   sanitize: string -> string, now: int, chatId: string)
    ensures !MatchesViewQuery(BuildMessage(id, senderId, content, kind, fileUrl, fileName,
                                           fileSize, sanitize, now), chatId)
  {
  }

  datatype SendError = MissingIds | NoChatDocument

  /**
   * The chat documents after the summary update of `sendMessage` for the stored message `m`:
   * an existing chat gets the new summary and time, and a missing one stays missing.
   */
  function AfterSend(chats: map<string, ChatDoc>, chatId: string, kind: string,
                     content: Option<string>, m: Message, now: int): (r: map<string, ChatDoc>)
    ensures r.Keys == chats.Keys
    ensures forall c :: c in chats && c != chatId ==> r[c] == chats[c]
    ensures chatId in chats ==>
              && r[chatId].participants == chats[chatId].participants
              && r[chatId].createdAt == chats[chatId].createdAt
              && r[chatId].lastMessage == Some(Summary(kind, content, m.FileName()))
              && r[chatId].lastMessageTime == now
  {
    if chatId in chats
    then chats[chatId := chats[chatId].(lastMessage := Some(Summary(kind, content, m.FileName())),
                                        lastMessageTime := now)]
    else chats
  }

  /** The documents the client reads and writes. */
  class Firestore {
    var users: map<string, UserDoc>
    var chats: map<string, ChatDoc>
    /** The `chats/{id}/messages` subcollections, each in write order. */
    var chatMessages: map<string, seq<Message>>
    /** The top-level `messages` collection. */
    var rootMessages: seq<Message>

    ghost predicate Valid()
      reads this
    {
      forall c :: c in chatMessages ==> DistinctIds(chatMessages[c])
    }

    constructor ()
      ensures Valid()
      ensures users == map[] && chats == map[] && chatMessages == map[] && rootMessages == []
    {
      users, chats, chatMessages, rootMessages := map[], map[], map[], [];
    }

    /** The subcollection of one chat; a chat nobody wrote to has none. */
    function MessagesOf(chatId: string): seq<Message>
      reads this
    {
      if chatId in chatMessages then chatMessages[chatId] else []
    }

    /** An id the backend may hand out for a new message of the chat. */
    predicate FreshMessageId(chatId: string, id: string)
      reads this
    {
      id != "" && forall m :: m in MessagesOf(chatId) ==> m.id != id
    }

    /** `createUserDocument`: writes the user document only if none exists; returns its id. */
    method CreateUserDocument(user: Option<AuthUser>, extra: AdditionalData, now: int)
      returns (ref: Option<string>)
      requires Valid()
      modifies this
      ensures Valid()
      ensures user.None? ==> ref.None? && users == old(users)
      ensures user.Some? ==> ref == Some(user.value.uid)
      ensures user.Some? && user.value.uid in old(users) ==> users == old(users)
      ensures user.Some? && user.value.uid !in old(users) ==>
                users == old(users)[user.value.uid := NewUserDoc(user.value, extra, now)]
      ensures chats == old(chats) && chatMessages == old(chatMessages)
      ensures rootMessages == old(rootMessages)
    {
      if user.None? {
        return None;
      }
      var uid := user.value.uid;
      if uid !in users {
        users := users[uid := NewUserDoc(user.value, extra, now)];
      }
      ref := Some(uid);
    }

    /**
     * `updateUserStatus`: sets the online flag and stamps `lastSeen`. Nothing happens for a
     * missing id, and the failed update of a missing document is swallowed.
     */
    method UpdateUserStatus(userId: string, isOnline: bool, now: int)
      requires Valid()
      modifies this
      ensures Valid()
      ensures userId == "" || userId !in old(users) ==> users == old(users)
      ensures userId != "" && userId in old(users) ==>
                users == old(users)[userId := old(users)[userId].(isOnline := isOnline, lastSeen := now)]
      ensures chats == old(chats) && chatMessages == old(chatMessages)
      ensures rootMessages == old(rootMessages)
    {
      if userId == "" || userId !in users {
        return;
      }
      users := users[userId := users[userId].(isOnline := isOnline, lastSeen := now)];
    }

    /**
     * `createChat`: always adds a new chat under the id the backend allocates, with no
     * summary yet; it never looks for an existing chat of the same participants.
     */
    method CreateChat(participants: seq<string>, now: int, newId: string) returns (chatId: string)
      requires Valid()
      requires newId != "" && newId !in chats
      modifies this
      ensures Valid()
      ensures chatId == newId
      ensures chats == old(chats)[newId := ChatDoc(participants, now, None, now)]
      ensures |chats| == |old(chats)| + 1
      ensures users == old(users) && chatMessages == old(chatMessages)
      ensures rootMessages == old(rootMessages)
    {
      chats := chats[newId := ChatDoc(participants, now, None, now)];
      chatId := newId;
    }

    /**
     * `sendMessage`: refuses a missing chat or sender id before writing anything; otherwise
     * appends the message to the chat's subcollection, then updates the chat's summary. That
     * update fails when the chat document does not exist, after the message was written.
     */
    method SendMessage(chatId: string, senderId: string, content: Option<string>, kind: string,
                       fileUrl: Option<FileRef>, fileName: Option<string>, fileSize: Option<nat>,
                       sanitize: string -> string, now: int, newId: string)
      returns (r: Result<Message, SendError>)
      requires Valid()
      requires chatId != "" ==> FreshMessageId(chatId, newId)
      modifies this
      ensures Valid()
      ensures chatId == "" || senderId == "" ==>
                r == Err(MissingIds) && chats == old(chats) && chatMessages == old(chatMessages)
      ensures chatId != "" && senderId != "" ==>
                var m := BuildMessage(newId, senderId, content, kind, fileUrl, fileName, fileSize, sanitize, now);
                && chatMessages == old(chatMessages)[chatId := old(MessagesOf(chatId)) + [m]]
                && (chatId in old(chats) ==>
                      r == Ok(m) &&
                      chats == old(chats)[chatId := old(chats)[chatId].(
                                 lastMessage := Some(Summary(kind, content, m.FileName())),
                                 lastMessageTime := now)])
                && (chatId !in old(chats) ==> r == Err(NoChatDocument) && chats == old(chats))
      ensures users == old(users) && rootMessages == old(rootMessages)
    {
      if chatId == "" || senderId == "" {
        return Err(MissingIds);
      }
      var m := BuildMessage(newId, senderId, content, kind, fileUrl, fileName, fileSize, sanitize, now);
      var log := MessagesOf(chatId);
      chatMessages := chatMessages[chatId := log + [m]];
      assert DistinctIds(log + [m]);
      if chatId !in chats {
        return Err(NoChatDocument);
      }
      chats := chats[chatId := chats[chatId].(lastMessage := Some(Summary(kind, content, m.FileName())),
                                              lastMessageTime := now)];
      r := Ok(m);
    }

    /** `deleteDoc` on one message of a chat: the message is removed outright, not flagged. */
    method DeleteMessage(chatId: string, messageId: string)
      requires Valid()
      modifies this
      ensures Valid()
      ensures chatId in old(chatMessages) ==>
                chatMessages == old(chatMessages)[chatId := WithoutId(old(chatMessages)[chatId], messageId)]
      ensures chatId !in old(chatMessages) ==> chatMessages == old(chatMessages)
      ensures forall m :: m in MessagesOf(chatId) ==> m.id != messageId
      ensures users == old(users) && chats == old(chats) && rootMessages == old(rootMessages)
    {
      if chatId in chatMessages {
        WithoutIdKeepsDistinct(chatMessages[chatId], messageId);
        chatMessages := chatMessages[chatId := WithoutId(chatMessages[chatId], messageId)];
      }
    }
  }
}

=== FILE: text.dfy ===
/**
 * The JavaScript string operations the chat client relies on, on `seq<char>`:
 * `trim`, `toLowerCase`/`toUpperCase` (ASCII letters), `includes`, `startsWith`,
 * `split` on one character and its inverse `join`, decimal rendering of counts and
 * the relational operators on strings.
 */
module Text {

  import opened Wrappers

  /** JavaScript truthiness of a string that may be null or undefined. */
  predicate Truthy(s: Option<string>) {
    s.Some? && s.value != ""
  }

  /** JavaScript's `a || b` on strings: the empty string is falsy. */
  function Or(a: string, b: string): (r: string)
    ensures a != "" ==> r == a
    ensures a == "" ==> r == b
  {
    if a != "" then a else b
  }

  /** JavaScript's `a || b` when `a` may also be null or undefined. */
  function OrNull(a: Option<string>, b: string): (r: string)
    ensures a.Some? && a.value != "" ==> r == a.value
    ensures !(a.Some? && a.value != "") ==> r == b
  {
    if a.Some? then Or(a.value, b) else b
  }

  /** JavaScript's WhiteSpace and LineTerminator characters, the ones `trim` removes. */
  predicate IsJsSpace(c: char) {
    || c == ' ' || c == '\t' || c == '\n' || c == '\r'
    || c == '\U{B}' || c == '\U{C}' || c == '\U{A0}' || c == '\U{1680}'
    || ('\U{2000}' <= c <= '\U{200A}')
    || c == '\U{2028}' || c == '\U{2029}' || c == '\U{202F}' || c == '\U{205F}'
    || c == '\U{3000}' || c == '\U{FEFF}'
  }

  predicate AllSpace(s: string) {
    forall i :: 0 <= i < |s| ==> IsJsSpace(s[i])
  }

  /** How many white-space characters `s` starts with. */
  function LeadingSpaces(s: string): (k: nat)
    ensures k <= |s|
    ensures forall i :: 0 <= i < k ==> IsJsSpace(s[i])
    ensures k < |s| ==> !IsJsSpace(s[k])
  {
    if s != [] && IsJsSpace(s[0]) then 1 + LeadingSpaces(s[1..]) else 0
  }

  /** Where the white space that `s` ends with begins. */
  function TrailingStart(s: string): (k: nat)
    ensures k <= |s|
    ensures forall i :: k <= i < |s| ==> IsJsSpace(s[i])
    ensures k > 0 ==> !IsJsSpace(s[k - 1])
  {
    if s != [] && IsJsSpace(s[|s| - 1]) then TrailingStart(s[..|s| - 1]) else |s|
  }

  /** Drops the leading white space. */
  function TrimStart(s: string): (r: string)
    ensures |r| <= |s| && r == s[|s| - |r|..]
    ensures AllSpace(s[..|s| - |r|])
    ensures r == [] || !IsJsSpace(r[0])
  {
    s[LeadingSpaces(s)..]
  }

  /** Drops the trailing white space. */
  function TrimEnd(s: string): (r: string)
    ensures |r| <= |s| && r == s[..|r|]
    ensures AllSpace(s[|r|..])
    ensures r == [] || !IsJsSpace(r[|r| - 1])
  {
    s[..TrailingStart(s)]
  }

  /** `s.trim()`: the text between the leading and the trailing white space. */
  function Trim(s: string): (r: string)
    ensures |r| <= |s|
    ensures r == [] || (!IsJsSpace(r[0]) && !IsJsSpace(r[|r| - 1]))
  {
    TrimEnd(TrimStart(s))
  }

  /** A trimmed string is empty exactly when the string is all white space. */
  lemma TrimEmptyIff(s: string)
    ensures Trim(s) == [] <==> AllSpace(s)
  {
    var t := TrimStart(s);
    if Trim(s) == [] {
      assert AllSpace(t[0..]);
      assert t == [];
      assert s[..|s|] == s;
    }
  }

  /** `c.toLowerCase()` for ASCII letters; every other character is kept. */
  function LowerChar(c: char): (r: char)
    ensures 'A' <= c <= 'Z' ==> 'a' <= r <= 'z' && r as int == c as int + 32
    ensures !('A' <= c <= 'Z') ==> r == c
  {
    if 'A' <= c <= 'Z' then (c as int + 32) as char else c
  }

  /** `c.toUpperCase()` for ASCII letters; every other character is kept. */
  function UpperChar(c: char): (r: char)
    ensures 'a' <= c <= 'z' ==> 'A' <= r <= 'Z' && r as int == c as int - 32
    ensures !('a' <= c <= 'z') ==> r == c
  {
    if 'a' <= c <= 'z' then (c as int - 32) as char else c
  }

  function Lower(s: string): (r: string)
    ensures |r| == |s| && forall i :: 0 <= i < |s| ==> r[i] == LowerChar(s[i])
  {
    seq(|s|, i requires 0 <= i < |s| => LowerChar(s[i]))
  }

  function Upper(s: string): (r: string)
    ensures |r| == |s| && forall i :: 0 <= i < |s| ==> r[i] == UpperChar(s[i])
  {
    seq(|s|, i requires 0 <= i < |s| => UpperChar(s[i]))
  }

  predicate StartsWith(s: string, prefix: string) {
    |prefix| <= |s| && s[..|prefix|] == prefix
  }

  /** `sub` occurs in `s` starting at index `i`. */
  predicate OccursAt(s: string, sub: string, i: int) {
    0 <= i <= |s| - |sub| && s[i..i + |sub|] == sub
  }

  /** `s.includes(sub)`, searching from the left. */
  function Contains(s: string, sub: string): (r: bool)
    ensures r <==> exists i :: OccursAt(s, sub, i)
  {
    if StartsWith(s, sub) then
      assert OccursAt(s, sub, 0);
      true
    else if s == [] then
      false
    else
      var r := Contains(s[1..], sub);
      if r then
        var i :| OccursAt(s[1..], sub, i);
        assert OccursAt(s, sub, i + 1);
        true
      else
        assert forall i :: OccursAt(s, sub, i) ==> i > 0 && OccursAt(s[1..], sub, i - 1);
        false
  }

  /** `s.split(sep)` for a one-character separator: every occurrence cuts, so pieces may be empty. */
  function Split(s: string, sep: char): (r: seq<string>)
    ensures |r| >= 1
    ensures forall k :: 0 <= k < |r| ==> sep !in r[k]
  {
    if s == [] then [""]
    else
      var rest := Split(s[1..], sep);
      if s[0] == sep then [""] + rest
      else [[s[0]] + rest[0]] + rest[1..]
  }

  /** `parts.join(sep)`. */
  function Join(parts: seq<string>, sep: char): string
    requires |parts| >= 1
  {
    if |parts| == 1 then parts[0] else parts[0] + [sep] + Join(parts[1..], sep)
  }

  /** Joining the pieces of a split gives the string back. */
  lemma {:induction false} JoinSplit(s: string, sep: char)
    ensures Join(Split(s, sep), sep) == s
  {
    if s != [] {
      var rest := Split(s[1..], sep);
      JoinSplit(s[1..], sep);
      if s[0] == sep {
        assert Split(s, sep)[1..] == rest;
      } else {
        var r := Split(s, sep);
        if |rest| == 1 {
          assert r == [[s[0]] + rest[0]];
        } else {
          assert r[1..] == rest[1..];
          assert Join(rest, sep) == rest[0] + [sep] + Join(rest[1..], sep);
        }
      }
    }
  }

  /** Splitting a join of separator-free pieces gives the pieces back. */
  lemma {:induction false} SplitJoin(parts: seq<string>, sep: char)
    requires |parts| >= 1
    requires forall k :: 0 <= k < |parts| ==> sep !in parts[k]
    ensures Split(Join(parts, sep), sep) == parts
  {
    if |parts| == 1 {
      SplitPiece(parts[0], [], sep);
      assert parts[0] + [] == parts[0];
    } else {
      SplitJoin(parts[1..], sep);
      SplitPiece(parts[0], [sep] + Join(parts[1..], sep), sep);
      assert parts[0] + [sep] + Join(parts[1..], sep) == parts[0] + ([sep] + Join(parts[1..], sep));
    }
  }

  /** A separator-free piece in front only extends the first piece of the split. */
  lemma {:induction false} SplitPiece(p: string, tail: string, sep: char)
    requires sep !in p
    requires tail == [] || tail[0] == sep
    ensures tail == [] ==> Split(p + tail, sep) == [p]
    ensures tail != [] ==> Split(p + tail, sep) == [p] + Split(tail[1..], sep)
  {
    if p != [] {
      SplitPiece(p[1..], tail, sep);
      assert (p + tail)[1..] == p[1..] + tail;
      assert (p + tail)[0] == p[0] != sep;
      var rest := Split(p[1..] + tail, sep);
      assert Split(p + tail, sep) == [[p[0]] + rest[0]] + rest[1..];
      assert [p[0]] + p[1..] == p;
    } else {
      assert p + tail == tail;
    }
  }

  /** The index of the first occurrence of `c` in `s`, which must occur. */
  function IndexOf(s: string, c: char): (r: nat)
    requires c in s
    ensures r < |s| && s[r] == c && c !in s[..r]
  {
    if s[0] == c then 0
    else
      assert c in s[1..];
      var r := IndexOf(s[1..], c);
      assert s[..r + 1] == [s[0]] + s[1..][..r];
      r + 1
  }

  /** The split starts with the text before the first separator, if there is one. */
  lemma SplitAtFirst(s: string, sep: char)
    ensures sep !in s ==> Split(s, sep) == [s]
    ensures sep in s ==>
              Split(s, sep) == [s[..IndexOf(s, sep)]] + Split(s[IndexOf(s, sep) + 1..], sep)
  {
    if sep !in s {
      SplitPiece(s, [], sep);
      assert s + [] == s;
    } else {
      var i := IndexOf(s, sep);
      SplitPiece(s[..i], s[i..], sep);
      assert s[..i] + s[i..] == s;
      assert s[i..][1..] == s[i + 1..];
    }
  }

  /** The first piece of a split is empty exactly when the text starts with the separator. */
  lemma SplitHead(s: string, sep: char)
    ensures s == [] ==> Split(s, sep)[0] == []
    ensures s != [] ==> (Split(s, sep)[0] == [] <==> s[0] == sep)
    ensures s != [] && s[0] != sep ==> Split(s, sep)[0][0] == s[0]
  {
  }

  /** The last piece of `s.split(sep)`, that is `s.split(sep).pop()`. */
  function LastPiece(s: string, sep: char): (r: string)
    ensures sep !in r
    ensures sep !in s ==> r == s
  {
    var parts := Split(s, sep);
    assert sep !in s ==> parts == [s] by {
      if sep !in s { SplitPiece(s, [], sep); assert s + [] == s; }
    }
    parts[|parts| - 1]
  }

  /** `s[i]` is the last occurrence of the separator in `s`. */
  predicate LastSeparatorAt(s: string, sep: char, i: int) {
    0 <= i < |s| && s[i] == sep && sep !in s[i + 1..]
  }

  /** A text holding the separator splits into at least two pieces. */
  lemma {:induction false} SplitAtSeparator(s: string, sep: char)
    requires sep in s
    ensures |Split(s, sep)| >= 2
  {
    if s[0] != sep {
      SplitAtSeparator(s[1..], sep);
    }
  }

  /**
   * Dropping the first character keeps the last piece, as long as that character is the
   * separator or the separator occurs later.
   */
  lemma LastPieceOfRest(s: string, sep: char)
    requires s != [] && (s[0] == sep || sep in s[1..])
    ensures LastPiece(s, sep) == LastPiece(s[1..], sep)
  {
    var rest := Split(s[1..], sep);
    if s[0] != sep {
      SplitAtSeparator(s[1..], sep);
      var parts := [[s[0]] + rest[0]] + rest[1..];
      assert parts[|parts| - 1] == rest[|rest| - 1];
    }
  }

  /** When the separator occurs, the last piece is the text after its last occurrence. */
  lemma {:induction false} LastPieceAfterSeparator(s: string, sep: char)
    requires sep in s
    ensures exists i :: LastSeparatorAt(s, sep, i) && LastPiece(s, sep) == s[i + 1..]
    decreases |s|
  {
    var t := s[1..];
    LastPieceOfRest(s, sep);
    if sep in t {
      LastPieceAfterSeparator(t, sep);
      var j :| LastSeparatorAt(t, sep, j) && LastPiece(t, sep) == t[j + 1..];
      assert t[j + 1..] == s[j + 2..];
      assert LastSeparatorAt(s, sep, j + 1);
    } else {
      assert LastSeparatorAt(s, sep, 0);
    }
  }

  /** The decimal digits of a count, as `${n}` renders it. */
  function NatToString(n: nat): (r: string)
    ensures |r| >= 1
    ensures forall i :: 0 <= i < |r| ==> '0' <= r[i] <= '9'
    ensures n >= 10 <==> |r| >= 2
  {
    var d := ['0' + (n % 10) as char];
    if n < 10 then d else NatToString(n / 10) + d
  }

  /** Different counts render differently. */
  lemma {:induction false} NatToStringInjective(n: nat, m: nat)
    requires NatToString(n) == NatToString(m)
    ensures n == m
  {
    var s := NatToString(n);
    if n >= 10 && m >= 10 {
      assert s[..|s| - 1] == NatToString(n / 10) == NatToString(m / 10);
      NatToStringInjective(n / 10, m / 10);
      assert s[|s| - 1] == '0' + (n % 10) as char == '0' + (m % 10) as char;
    }
  }

  /**
   * Lexicographic order on code points, the order the backend gives strings in a range
   * query. (JavaScript's own `<=` compares UTF-16 code units, which differs from this above
   * U+FFFF.)
   */
  predicate LexLe(a: string, b: string)
    decreases |a|
  {
    a == [] || (b != [] && (a[0] < b[0] || (a[0] == b[0] && LexLe(a[1..], b[1..]))))
  }

  /** A prefix is never greater than the whole. */
  lemma {:induction false} PrefixLexLe(a: string, b: string)
    requires |a| <= |b| && b[..|a|] == a
    ensures LexLe(a, b)
  {
    if a != [] {
      assert b[1..][..|a| - 1] == a[1..];
      PrefixLexLe(a[1..], b[1..]);
    }
  }

  /** `a` is `b` with some elements left out, in the same order. */
  predicate SubsequenceOf<T(==)>(a: seq<T>, b: seq<T>)
    decreases |b|
  {
    a == [] || (b != [] && ((a[0] == b[0] && SubsequenceOf(a[1..], b[1..])) || SubsequenceOf(a, b[1..])))
  }

  /** `Array.prototype.filter`: the elements `keep` accepts, in their order. */
  function Filter<T(==, !new)>(s: seq<T>, keep: T -> bool): (r: seq<T>)
    ensures forall x :: x in r <==> x in s && keep(x)
  {
    if s == [] then []
    else
      var rest := Filter(s[1..], keep);
      assert forall x :: x in s <==> x == s[0] || x in s[1..];
      if keep(s[0]) then [s[0]] + rest else rest
  }

  /** Filtering leaves elements out but never reorders them. */
  lemma {:induction false} FilterIsSubsequence<T(!new)>(s: seq<T>, keep: T -> bool)
    ensures SubsequenceOf(Filter(s, keep), s)
  {
    if s != [] {
      FilterIsSubsequence(s[1..], keep);
      var rest := Filter(s[1..], keep);
      if keep(s[0]) {
        assert ([s[0]] + rest)[1..] == rest;
      } else if rest != [] {
        assert SubsequenceOf(rest, s[1..]);
      }
    }
  }

  /** When every element is accepted, filtering returns the sequence itself. */
  lemma {:induction false} FilterKeepsAll<T(!new)>(s: seq<T>, keep: T -> bool)
    requires forall x :: x in s ==> keep(x)
    ensures Filter(s, keep) == s
  {
    if s != [] {
      assert forall x :: x in s[1..] ==> x in s;
      FilterKeepsAll(s[1..], keep);
      assert [s[0]] + s[1..] == s;
    }
  }
}

=== FILE: timeline.dfy ===
/**
 * What both message views do with a snapshot of a message query: stamp the messages that
 * have no timestamp yet with the current time, and cut the ordered list into runs of
 * consecutive messages that fall on the same calendar day (`groupMessagesByDate`).
 */
module Timeline {

  import opened Wrappers
  import opened Store

  /** What `new Date(undefined).toDateString()` gives. */
  const INVALID_DATE: string := "Invalid Date"

  /** One date divider and the messages under it. */
  datatype DayGroup = DayGroup(date: string, messages: seq<Message>)

  /**
   * The calendar-day label of a message: `day` renders a timestamp the way
   * `toDateString` does in the browser's time zone.
   */
  function DayKey(m: Message, day: int -> string): string {
    if m.timestamp.Some? then day(m.timestamp.value) else INVALID_DATE
  }

  /** The messages from `j` to `k` of a group all come from one sender. */
  predicate SenderRun(group: seq<Message>, j: nat, k: nat)
    requires j <= k < |group|
  {
    forall l :: j <= l <= k ==> group[l].senderId == group[j].senderId
  }

  // ---------------------------------------------------------------- snapshot

  /** A snapshot document as the views keep it: a missing timestamp becomes `now`. */
  function Stamped(m: Message, now: int): (r: Message)
    ensures r.timestamp.Some?
    ensures m.timestamp.Some? ==> r == m
    ensures m.timestamp.None? ==> r == m.(timestamp := Some(now))
  {
    if m.timestamp.Some? then m else m.(timestamp := Some(now))
  }

  /**
   * The `snapshot.forEach(... push ...)` loop of both views: every document, in snapshot
   * order, each with a timestamp.
   */
  method CollectSnapshot(docs: seq<Message>, now: int) returns (msgs: seq<Message>)
    ensures |msgs| == |docs|
    ensures forall i :: 0 <= i < |docs| ==> msgs[i] == Stamped(docs[i], now)
    ensures forall i :: 0 <= i < |msgs| ==> msgs[i].timestamp.Some?
    ensures forall i :: 0 <= i < |msgs| ==> msgs[i].id == docs[i].id && msgs[i].content == docs[i].content
  {
    msgs := [];
    var i := 0;
    while i < |docs|
      invariant 0 <= i <= |docs|
      invariant |msgs| == i
      invariant forall k :: 0 <= k < i ==> msgs[k] == Stamped(docs[k], now)
    {
      var m := docs[i];
      if m.timestamp.None? {
        m := m.(timestamp := Some(now));
      }
      msgs := msgs + [m];
      i := i + 1;
    }
  }

  // ---------------------------------------------------------------- grouping

  /**
   * The reference grouping: the groups of `s` without its last message, with that message
   * appended to the last group when it shares its day, or opening a new group otherwise.
   */
  function Runs(s: seq<Message>, day: int -> string): seq<DayGroup>
    decreases |s|
  {
    if s == [] then []
    else
      var prev := Runs(s[..|s| - 1], day);
      var x := s[|s| - 1];
      if prev != [] && prev[|prev| - 1].date == DayKey(x, day) then
        prev[..|prev| - 1] + [DayGroup(DayKey(x, day), prev[|prev| - 1].messages + [x])]
      else
        prev + [DayGroup(DayKey(x, day), [x])]
  }

  /** The messages of the groups, one group after another. */
  function Flatten(gs: seq<DayGroup>): seq<Message>
    decreases |gs|
  {
    if gs == [] then [] else Flatten(gs[..|gs| - 1]) + gs[|gs| - 1].messages
  }

  /** A group is non-empty and every message in it falls on the group's day. */
  predicate GoodGroup(g: DayGroup, day: int -> string) {
    g.messages != [] && forall k :: 0 <= k < |g.messages| ==> DayKey(g.messages[k], day) == g.date
  }

  /** Neighbouring groups have different days. */
  predicate DaysChange(gs: seq<DayGroup>) {
    forall g :: 0 < g < |gs| ==> gs[g - 1].date != gs[g].date
  }

  /**
   * A grouping of `s` into day runs: together the groups are `s` in order, no group is
   * empty, every message sits under its own day, and neighbouring groups have different days.
   */
  predicate IsDayPartition(gs: seq<DayGroup>, s: seq<Message>, day: int -> string) {
    && Flatten(gs) == s
    && (forall g :: 0 <= g < |gs| ==> GoodGroup(gs[g], day))
    && DaysChange(gs)
  }

  lemma FlattenAppend(gs: seq<DayGroup>, g: DayGroup)
    ensures Flatten(gs + [g]) == Flatten(gs) + g.messages
  {
    assert (gs + [g])[..|gs|] == gs;
  }

  /** A good group whose day differs from the last one extends a day partition. */
  lemma PartitionAppend(gs: seq<DayGroup>, s: seq<Message>, g: DayGroup, day: int -> string)
    requires IsDayPartition(gs, s, day)
    requires GoodGroup(g, day)
    requires gs == [] || gs[|gs| - 1].date != g.date
    ensures IsDayPartition(gs + [g], s + g.messages, day)
  {
    FlattenAppend(gs, g);
    var gs' := gs + [g];
    forall i | 0 < i < |gs'| ensures gs'[i - 1].date != gs'[i].date {
      assert gs'[i - 1] == gs[i - 1];
      if i < |gs| { assert gs'[i] == gs[i]; }
    }
  }

  /** Removing the last group of a day partition leaves a day partition of what precedes it. */
  lemma PartitionFront(gs: seq<DayGroup>, s: seq<Message>, day: int -> string)
    requires IsDayPartition(gs, s, day)
    requires gs != []
    ensures var front := gs[..|gs| - 1];
            IsDayPartition(front, Flatten(front), day) &&
            s == Flatten(front) + gs[|gs| - 1].messages
  {
    var front := gs[..|gs| - 1];
    assert gs == front + [gs[|gs| - 1]];
    FlattenAppend(front, gs[|gs| - 1]);
    forall i | 0 < i < |front| ensures front[i - 1].date != front[i].date {
      assert front[i - 1] == gs[i - 1] && front[i] == gs[i];
    }
  }

  /** Growing the last group of a day partition by a message of its day keeps a day partition. */
  lemma GrowLastGroup(prev: seq<DayGroup>, init: seq<Message>, x: Message, day: int -> string)
    requires IsDayPartition(prev, init, day)
    requires prev != [] && prev[|prev| - 1].date == DayKey(x, day)
    ensures IsDayPartition(prev[..|prev| - 1] + [DayGroup(DayKey(x, day), prev[|prev| - 1].messages + [x])],
                           init + [x], day)
  {
    var last := prev[|prev| - 1];
    var front := prev[..|prev| - 1];
    PartitionFront(prev, init, day);
    var grown := DayGroup(DayKey(x, day), last.messages + [x]);
    assert GoodGroup(grown, day) by {
      assert GoodGroup(last, day);
    }
    if front != [] {
      assert front[|front| - 1] == prev[|prev| - 2];
      assert DaysChange(prev);
    }
    PartitionAppend(front, Flatten(front), grown, day);
  }

  /** The reference grouping is a day partition. */
  lemma {:induction false} RunsIsDayPartition(s: seq<Message>, day: int -> string)
    ensures IsDayPartition(Runs(s, day), s, day)
    decreases |s|
  {
    if s != [] {
      var init := s[..|s| - 1];
      var x := s[|s| - 1];
      var prev := Runs(init, day);
      RunsIsDayPartition(init, day);
      assert init + [x] == s;
      RunsSnoc(init, x, day);
      if prev != [] && prev[|prev| - 1].date == DayKey(x, day) {
        GrowLastGroup(prev, init, x, day);
      } else {
        PartitionAppend(prev, init, DayGroup(DayKey(x, day), [x]), day);
      }
    }
  }

  /** The groups of `s` without its last message: the last group loses that message. */
  function DropLast(gs: seq<DayGroup>): seq<DayGroup>
    requires gs != [] && gs[|gs| - 1].messages != []
  {
    var last := gs[|gs| - 1];
    if |last.messages| == 1 then gs[..|gs| - 1]
    else gs[..|gs| - 1] + [DayGroup(last.date, last.messages[..|last.messages| - 1])]
  }

  lemma RunsSnoc(init: seq<Message>, x: Message, day: int -> string)
    ensures var prev := Runs(init, day);
            Runs(init + [x], day) ==
              if prev != [] && prev[|prev| - 1].date == DayKey(x, day) then
                prev[..|prev| - 1] + [DayGroup(DayKey(x, day), prev[|prev| - 1].messages + [x])]
              else
                prev + [DayGroup(DayKey(x, day), [x])]
  {
    assert (init + [x])[..|init|] == init;
  }

  /** Taking the last message off a day partition leaves a day partition of the rest. */
  lemma DropLastIsPartition(gs: seq<DayGroup>, s: seq<Message>, day: int -> string)
    requires IsDayPartition(gs, s, day) && gs != []
    ensures GoodGroup(gs[|gs| - 1], day)
    ensures s == s[..|s| - 1] + [gs[|gs| - 1].messages[|gs[|gs| - 1].messages| - 1]]
    ensures IsDayPartition(DropLast(gs), s[..|s| - 1], day)
  {
    var front := gs[..|gs| - 1];
    var last := gs[|gs| - 1];
    PartitionFront(gs, s, day);
    assert GoodGroup(last, day);
    var x := last.messages[|last.messages| - 1];
    if front != [] {
      assert front[|front| - 1] == gs[|gs| - 2];
      assert DaysChange(gs);
    }
    if |last.messages| == 1 {
      assert last.messages == [x];
      assert s == Flatten(front) + [x];
    } else {
      var shorter := DayGroup(last.date, last.messages[..|last.messages| - 1]);
      assert last.messages == shorter.messages + [x];
      assert s == Flatten(front) + shorter.messages + [x];
      PartitionAppend(front, Flatten(front), shorter, day);
    }
  }

  /** A grouping ending in a one-message group whose day differs from the one before. */
  lemma NewGroupDetermines(front: seq<DayGroup>, init: seq<Message>, x: Message, day: int -> string)
    requires front == Runs(init, day)
    requires front != [] ==> front[|front| - 1].date != DayKey(x, day)
    ensures front + [DayGroup(DayKey(x, day), [x])] == Runs(init + [x], day)
  {
    RunsSnoc(init, x, day);
  }

  /** A grouping whose last group grew by one message of the same day. */
  lemma GrownGroupDetermines(front: seq<DayGroup>, shorter: DayGroup, init: seq<Message>,
                             x: Message, day: int -> string)
    requires front + [shorter] == Runs(init, day)
    requires shorter.date == DayKey(x, day)
    ensures front + [DayGroup(shorter.date, shorter.messages + [x])] == Runs(init + [x], day)
  {
    RunsSnoc(init, x, day);
    assert (front + [shorter])[..|front|] == front;
  }

  /** A grouping whose last group holds one message is the reference grouping once its front is. */
  lemma SingletonLastDetermines(gs: seq<DayGroup>, init: seq<Message>, x: Message, day: int -> string)
    requires gs != [] && gs[|gs| - 1] == DayGroup(DayKey(x, day), [x])
    requires |gs| >= 2 ==> gs[|gs| - 2].date != DayKey(x, day)
    requires gs[..|gs| - 1] == Runs(init, day)
    ensures gs == Runs(init + [x], day)
  {
    var front := gs[..|gs| - 1];
    if front != [] {
      assert front[|front| - 1] == gs[|gs| - 2];
    }
    NewGroupDetermines(front, init, x, day);
    assert gs == front + [gs[|gs| - 1]];
  }

  /** A grouping whose last group holds several messages is the reference grouping once the shorter one is. */
  lemma LongerLastDetermines(gs: seq<DayGroup>, init: seq<Message>, x: Message, day: int -> string)
    requires gs != [] && |gs[|gs| - 1].messages| >= 2
    requires x == gs[|gs| - 1].messages[|gs[|gs| - 1].messages| - 1]
    requires DayKey(x, day) == gs[|gs| - 1].date
    requires DropLast(gs) == Runs(init, day)
    ensures gs == Runs(init + [x], day)
  {
    var front := gs[..|gs| - 1];
    var last := gs[|gs| - 1];
    var shorter := DayGroup(last.date, last.messages[..|last.messages| - 1]);
    assert DropLast(gs) == front + [shorter];
    assert last.messages == shorter.messages + [x];
    GrownGroupDetermines(front, shorter, init, x, day);
    assert gs == front + [last];
  }

  /** A grouping is the reference grouping once the grouping without its last message is. */
  lemma DropLastDetermines(gs: seq<DayGroup>, init: seq<Message>, x: Message, day: int -> string)
    requires gs != [] && gs[|gs| - 1].messages != []
    requires x == gs[|gs| - 1].messages[|gs[|gs| - 1].messages| - 1]
    requires DayKey(x, day) == gs[|gs| - 1].date
    requires |gs| >= 2 ==> gs[|gs| - 2].date != gs[|gs| - 1].date
    requires DropLast(gs) == Runs(init, day)
    ensures gs == Runs(init + [x], day)
  {
    var last := gs[|gs| - 1];
    if |last.messages| == 1 {
      assert last.messages == [x];
      SingletonLastDetermines(gs, init, x, day);
    } else {
      LongerLastDetermines(gs, init, x, day);
    }
  }

  /** There is only one day partition of a message list: the reference grouping. */
  lemma {:induction false} DayPartitionUnique(gs: seq<DayGroup>, s: seq<Message>, day: int -> string)
    requires IsDayPartition(gs, s, day)
    ensures gs == Runs(s, day)
    decreases |s|
  {
    if gs == [] {
      assert s == Flatten(gs) == [];
    } else {
      DropLastIsPartition(gs, s, day);
      DayPartitionUnique(DropLast(gs), s[..|s| - 1], day);
      var last := gs[|gs| - 1];
      assert DaysChange(gs);
      assert |gs| >= 2 ==> gs[|gs| - 2].date != last.date;
      DropLastDetermines(gs, s[..|s| - 1], last.messages[|last.messages| - 1], day);
    }
  }

  /**
   * One step of the walk over `messages[i]`: a message of another day closes the open group
   * (if any) and opens its own; a message of the open group's day joins it.
   */
  lemma WalkStep(messages: seq<Message>, i: nat, groups: seq<DayGroup>, currentDate: Option<string>,
                 currentGroup: seq<Message>, day: int -> string)
    requires i < |messages|
    requires currentGroup == [] <==> i == 0
    requires currentDate.Some? <==> i > 0
    requires i == 0 ==> groups == []
    requires i > 0 ==> Runs(messages[..i], day) == groups + [DayGroup(currentDate.value, currentGroup)]
    ensures var x := messages[i];
            currentDate != Some(DayKey(x, day)) ==>
              Runs(messages[..i + 1], day) ==
                (if currentGroup != [] then groups + [DayGroup(currentDate.value, currentGroup)] else groups) +
                [DayGroup(DayKey(x, day), [x])]
    ensures var x := messages[i];
            currentDate == Some(DayKey(x, day)) ==>
              Runs(messages[..i + 1], day) == groups + [DayGroup(currentDate.value, currentGroup + [x])]
  {
    var x := messages[i];
    assert messages[..i + 1] == messages[..i] + [x];
    RunsSnoc(messages[..i], x, day);
    if i > 0 {
      assert (groups + [DayGroup(currentDate.value, currentGroup)])[..|groups|] == groups;
    }
  }

  /**
   * `groupMessagesByDate`: walks the messages once, keeping the day of the open group and
   * its messages, and closes the group whenever the day changes.
   */
  method GroupMessagesByDate(messages: seq<Message>, day: int -> string) returns (groups: seq<DayGroup>)
    ensures groups == Runs(messages, day)
    ensures IsDayPartition(groups, messages, day)
    ensures |groups| <= |messages|
  {
    groups := [];
    var currentDate: Option<string> := None;
    var currentGroup: seq<Message> := [];
    var i := 0;
    while i < |messages|
      invariant 0 <= i <= |messages|
      invariant currentGroup == [] <==> i == 0
      invariant currentDate.Some? <==> i > 0
      invariant i > 0 ==> Runs(messages[..i], day) == groups + [DayGroup(currentDate.value, currentGroup)]
      invariant i == 0 ==> groups == []
      invariant |groups| < i || i == 0
    {
      var message := messages[i];
      var messageDate := DayKey(message, day);
      WalkStep(messages, i, groups, currentDate, currentGroup, day);
      if currentDate != Some(messageDate) {
        if currentGroup != [] {
          groups := groups + [DayGroup(currentDate.value, currentGroup)];
        }
        currentDate := Some(messageDate);
        currentGroup := [message];
      } else {
        currentGroup := currentGroup + [message];
      }
      i := i + 1;
    }
    assert messages[..i] == messages;
    if currentGroup != [] {
      groups := groups + [DayGroup(currentDate.value, currentGroup)];
    }
    RunsIsDayPartition(messages, day);
  }
}

=== FILE: user_avatar.dfy ===
/**
 * The round avatar: initials from the display name, a background colour picked from a
 * fixed palette by the name's length, and the colour of the small presence dot.
 */
module UserAvatar {

  import opened Wrappers
  import opened Text

  const MISSING_INITIALS: string := "?"
  const MISSING_COLOR: string := "bg-gray-500"
  /** The palette, in order. */
  const PALETTE: seq<string> := ["bg-red-500", "bg-blue-500", "bg-green-500", "bg-yellow-500",
                                 "bg-purple-500", "bg-pink-500", "bg-indigo-500", "bg-teal-500",
                                 "bg-orange-500", "bg-cyan-500"]

  /** `word.charAt(0).toUpperCase()`: nothing for an empty word. */
  function Initial(word: string): (r: string)
    ensures |r| <= 1
  {
    if word == [] then [] else [UpperChar(word[0])]
  }

  /**
   * `getInitials`: '?' for a missing or empty name; otherwise the initials of the first two
   * pieces of the name split at every single space, joined.
   */
  function GetInitials(name: Option<string>): (r: string)
    ensures name.None? || name.value == "" ==> r == MISSING_INITIALS
    ensures |r| <= 2
  {
    if name.None? || name.value == "" then MISSING_INITIALS
    else
      var words := Split(name.value, ' ');
      Initial(words[0]) + (if |words| >= 2 then Initial(words[1]) else [])
  }

  /**
   * The same initials read straight off the text: the upper-cased first character unless
   * it is a space, then the upper-cased character after the first space, if that space has
   * a character after it that is not itself a space.
   */
  function InitialsByScan(name: string): string
    requires name != ""
  {
    var first := if name[0] != ' ' then [UpperChar(name[0])] else [];
    if ' ' !in name then first
    else
      var i := IndexOf(name, ' ');
      first + (if i + 1 < |name| && name[i + 1] != ' ' then [UpperChar(name[i + 1])] else [])
  }

  /** `getInitials` takes the first character of the name and the first after its first space. */
  lemma InitialsMatchScan(name: string)
    requires name != ""
    ensures GetInitials(Some(name)) == InitialsByScan(name)
  {
    var words := Split(name, ' ');
    SplitAtFirst(name, ' ');
    if ' ' in name {
      var i := IndexOf(name, ' ');
      var rest := name[i + 1..];
      SplitHead(rest, ' ');
      assert words[0] == name[..i];
      assert words[1] == Split(rest, ' ')[0];
      if i > 0 {
        assert words[0][0] == name[0];
      }
      if i + 1 < |name| {
        assert rest[0] == name[i + 1];
      }
    }
  }

  /** `getBackgroundColor`: grey for a missing or empty name, else the palette entry the length picks. */
  function GetBackgroundColor(name: Option<string>): (r: string)
    ensures name.None? || name.value == "" ==> r == MISSING_COLOR
    ensures name.Some? && name.value != "" ==> r in PALETTE && r == PALETTE[|name.value| % 10]
  {
    if name.None? || name.value == "" then MISSING_COLOR
    else PALETTE[|name.value| % |PALETTE|]
  }

  /** Two names of the same length get the same colour; lengths ten apart too. */
  lemma ColorDependsOnLengthOnly(a: string, b: string)
    requires a != "" && b != ""
    requires |a| % 10 == |b| % 10
    ensures GetBackgroundColor(Some(a)) == GetBackgroundColor(Some(b))
  {
  }

  /** The colour of the presence dot: the four known statuses, and the offline colour for any other. */
  function StatusColor(status: string): (r: string)
    ensures status == "online" ==> r == "bg-green-500"
    ensures status == "away" ==> r == "bg-yellow-500"
    ensures status == "busy" ==> r == "bg-red-500"
    ensures status != "online" && status != "away" && status != "busy" ==> r == "bg-gray-400"
  {
    match status
    case "online" => "bg-green-500"
    case "offline" => "bg-gray-400"
    case "away" => "bg-yellow-500"
    case "busy" => "bg-red-500"
    case _ => "bg-gray-400"
  }

  /** The dot is drawn only for a present, non-empty status. */
  function StatusDot(status: Option<string>): (r: Option<string>)
    ensures r.Some? <==> status.Some? && status.value != ""
    ensures r.Some? ==> r.value == StatusColor(status.value)
  {
    if status.Some? && status.value != "" then Some(StatusColor(status.value)) else None
  }
}

=== FILE: wrappers.dfy ===
/** Option and Result, the stand-ins for JavaScript's null/undefined and thrown errors. */
module Wrappers {

  datatype Option<+T> = None | Some(value: T) {

    /** The value if present, otherwise `default` (JavaScript's `x ?? default`). */
    function GetOr(default: T): T {
      match this
      case Some(v) => v
      case None => default
    }
  }

  datatype Result<+R, +E> = Ok(value: R) | Err(error: E)
}
